=== FILE: README.md ===
# A Dafny model of the GraphQL Mesh fusion gateway core

This project models the core of the GraphQL Mesh *fusion* gateway and proves properties
about it. Composition annotates each subgraph schema and merges the results into one
supergraph. The gateway plans and executes client operations against that supergraph. It
also extracts a single subgraph's schema back out of it. The model covers four parts:

- **Operation planning front end and result packaging**
  (`packages/fusion/execution/src/operations.ts`, module `Operations` in
  `operations.dfy`). It covers:
  - choosing the operation of a document;
  - collecting fragments;
  - default variables;
  - the synthetic `__fake` root field;
  - the root-type check;
  - merging default variables with the caller's;
  - removing internal `__variable*` keys from a response;
  - packaging `{data, errors}`.

  The query planner, `flattenSelections`, the plan post-processing and the parallel
  executor are not part of this model. They are function-typed parameters
  (`Planner`, `Flatten`, `MakeExecutable`, `Engine`).
- **Subgraph extraction** (`packages/fusion/execution/src/extractSubgraph.ts`, module
  `SubgraphExtraction` in `extract_subgraph.dfy`). This is the `visit` rewrite over the
  printed supergraph: it drops directives and definitions that belong to other subgraphs
  and restores the `source` names.
- **Composition** (`packages/fusion/composition/src/index.ts`, module `Composition` in
  `composition.dfy`, plus module `ResolverText` in `resolver_text.dfy`). It covers:
  - the TYPE, FIELD, ENUM_VALUE and ROOT_FIELD mappers, including the exact text of the
    resolver operation synthesized for each root field;
  - the `typeToOperationType` map;
  - the transforms loop;
  - the rename-transform factories;
  - `getDirectiveExtensions`.

  `ResolverText` is a small reader for the synthesized operation text. It proves that the
  text reads back as the operation the field describes.
- **Runtime wiring** (`packages/fusion/runtime/src/index.ts`, module `Runtime` in
  `runtime.dfy`). It covers:
  - the subgraph → transport-entry map;
  - the hook collection;
  - the per-subgraph executor memo, with before- and done-hook chains and
    `setExecutor`/`setResult`;
  - the plan cache;
  - the introspection short-circuit of `onExecute`;
  - `getExecuteFnFromExecutor`.

Shared vocabulary:

- `outcomes.dfy` (`Option`, `Result`).
- `values.dfy` (`Values`): JSON-like values. It provides JavaScript truthiness and
  template-literal printing, `JSON.stringify` for strings with a reader that inverts it,
  and ordered object entries with `obj[key] = v` semantics (`Put`).
- `syntax.dfy` (`Syntax`): the GraphQL AST slice the core touches.

Imperative source code is modelled as methods with loops, each proved equal to a
specification function. Examples are `PlanOperation`, `GetDirectiveExtensions`,
`BuildResolverOperation`, `ComposeSubgraphs`, `GetSubgraphTransportMap`, `CollectHooks`
and `ExecuteHooked`. State the source keeps in closures becomes a class:

- `SupergraphExecutor` holds `executorMap`.
- `PlanMemo` holds the plan cache.

Everything else is functions and lemmas.

## Model

Source paths are relative to the repository root.

| member | source | states |
|---|---|---|
| Operations.PlanOperation | packages/fusion/execution/src/operations.ts:24-99 | The loop over the definitions returns exactly the specified plan. That is either the first error met (an ambiguous operation, no operation found, no root type) or a plan built from the chosen operation, its fragments, its default variables and the root type of its kind. |
| Operations.SelectWithoutName | packages/fusion/execution/src/operations.ts:31-46 | Without a usable name (absent or empty), the outcome depends on how many operations there are. None: "No operation found". Exactly one: that operation. Two or more: "Must provide operation name…", raised at the second. |
| Operations.SelectWithName | packages/fusion/execution/src/operations.ts:31-46 | With a name, the outcome is the last operation carrying that name, or "No operation found" when none does. Anonymous operations never match. |
| Operations.SelectOperationOutcome | packages/fusion/execution/src/operations.ts:31-46 | The error or the operation chosen, for each case of name and operation count. |
| Operations.LastNamedIsLast | packages/fusion/execution/src/operations.ts:36-38 | The chosen named operation has the requested name, and no later operation has it. None is chosen exactly when no operation has it. |
| Operations.SelectFromErrorPersists | packages/fusion/execution/src/operations.ts:33-35 | Once the ambiguity error is raised for a prefix of the definitions, the rest of the document cannot change the outcome. So returning early is sound. |
| Operations.FragmentMapHoldsLastFragment | packages/fusion/execution/src/operations.ts:39-41 | A name is in the fragment map iff some fragment definition has it. The map holds the last such fragment. |
| Operations.DefaultVariablesKeys | packages/fusion/execution/src/operations.ts:48-56 | A variable has a default entry iff its definition has a default value. Nothing else appears. |
| Operations.DefaultVariablesUnique | packages/fusion/execution/src/operations.ts:48-56 | The default variables object has no repeated key. |
| Operations.FakeArguments | packages/fusion/execution/src/operations.ts:64-71 | One argument per variable definition, in order, each bound to the variable of the same name. |
| Operations.FakeRootField | packages/fusion/execution/src/operations.ts:58-76 | The synthetic root field is an unaliased field named `__fake` whose arguments are exactly those bindings. |
| Operations.PlanSucceeds | packages/fusion/execution/src/operations.ts:78-83 | Planning succeeds iff an operation is chosen and the supergraph has a root type for its kind. A missing root type gives "No root type found…". The plan carries the chosen operation's default variables. |
| Operations.CreateExecutablePlan | packages/fusion/execution/src/operations.ts:138-158 | The executable plan fails exactly when planning fails, with the same error. It keeps the planned default variables. |
| Operations.MapFromEntriesLastWins | packages/fusion/execution/src/operations.ts:203-206 | `new Map(entries)` maps each key to the value of its last entry. |
| Operations.InputVariablesCallerWins | packages/fusion/execution/src/operations.ts:203-206 | In the input variable map, a caller value overrides the default of the same name. A default the caller does not give survives, and nothing else appears. |
| Operations.RemoveInternalFields | packages/fusion/execution/src/operations.ts:160-172 | Cleaning keeps arrays as arrays of the same length and objects as objects. Scalars are returned unchanged. |
| Operations.RemoveInternalItems | packages/fusion/execution/src/operations.ts:160-163 | An array keeps its length, and element `i` of the answer is element `i` of the response, cleaned. |
| Operations.RemoveInternalFieldsClean | packages/fusion/execution/src/operations.ts:160-172 | After cleaning, no object key at any depth starts with `__variable`. |
| Operations.RemoveInternalFieldsKeepsClean | packages/fusion/execution/src/operations.ts:160-172 | A value with no internal key at any depth is left exactly as it was. |
| Operations.RemoveInternalFieldsIdempotent | packages/fusion/execution/src/operations.ts:160-172 | Cleaning twice is cleaning once. |
| Operations.RemoveInternalEntriesKeys | packages/fusion/execution/src/operations.ts:164-168 | The keys of a cleaned object are its non-internal keys, in their original order. |
| Operations.RemoveInternalEntriesValues | packages/fusion/execution/src/operations.ts:164-168 | Every non-internal key keeps its value, recursively cleaned. |
| Operations.PrepareExecutionResult | packages/fusion/execution/src/operations.ts:174-185 | `data` is absent iff nothing or null was exported. Otherwise it is the cleaned export, with no internal key at any depth. `errors` is absent iff the error list is empty, and is that list otherwise. |
| Operations.ExecuteOperationPlan | packages/fusion/execution/src/operations.ts:187-215 | The engine runs on the merged variables. The answer is `prepareExecutionResult` of what it exported and reported. `data` is the export with internal keys removed, present exactly when the export is non-null. `errors` is the engine's list, present exactly when non-empty. |
| SubgraphExtraction.FilterDirectivesMembers | packages/fusion/execution/src/extractSubgraph.ts:8-18 | A directive survives iff its first `subgraph` argument is absent, is not a string, or names the target subgraph. Survivors are unchanged. |
| SubgraphExtraction.ExtractNode | packages/fusion/execution/src/extractSubgraph.ts:19-36 | A node is dropped iff it has one of the six filtered kinds and its first `source` directive names another subgraph (subtree included). A kept node of a filtered kind takes its `source` string `name`. Kind and type stay. Directives are filtered and children extracted. Interfaces, unions and arguments are never dropped. |
| SubgraphExtraction.ExtractNodesMembers | packages/fusion/execution/src/extractSubgraph.ts:7-37 | The definitions left after the visit are exactly the rewrites of the definitions it keeps. |
| SubgraphExtraction.ExtractNodesAppend | packages/fusion/execution/src/extractSubgraph.ts:7-37 | Survivors keep their original order: extracting `a + b` gives the survivors of `a`, then those of `b`. |
| SubgraphExtraction.ExtractSubgraphHasNoForeignDirectives | packages/fusion/execution/src/extractSubgraph.ts:8-18 | No directive anywhere in the extracted tree names another subgraph. |
| SubgraphExtraction.FilterDirectivesIdempotent | packages/fusion/execution/src/extractSubgraph.ts:8-18 | Filtering directives twice is filtering once. |
| SubgraphExtraction.FindDirectiveAfterFilter | packages/fusion/execution/src/extractSubgraph.ts:49 | Filtering keeps a surviving first `source` directive first and cannot create one. |
| SubgraphExtraction.ExtractSubgraphIdempotent | packages/fusion/execution/src/extractSubgraph.ts:4-75 | Extracting the same subgraph from an extracted tree changes nothing. |
| Composition.GetDirectiveExtensions | packages/fusion/composition/src/index.ts:216-223 | The loop builds exactly the directive-extensions object. |
| Composition.DirectiveExtensionsLastWins | packages/fusion/composition/src/index.ts:216-223 | Each directive name maps to the arguments of its last directive, and only directive names appear. |
| Composition.DirectiveExtensionsUnique | packages/fusion/composition/src/index.ts:216-223 | The object has one entry per name. |
| Composition.BuildTypeToOperationType | packages/fusion/composition/src/index.ts:39-44 | The loop builds exactly the root-name → operation-type map. |
| Composition.TypeToOperationTypeLastWins | packages/fusion/composition/src/index.ts:39-44 | A type name is a key iff it is a root type. Its value is the operation type of the last root entry with that name. |
| Composition.AnnotatedType | packages/fusion/composition/src/index.ts:47-71 | A specified scalar is returned unchanged. A root type is renamed to `Query`/`Mutation`/`Subscription` by its operation kind and gets no type-level tag. Every other type keeps its directives, with `source{subgraph, name}` written over any earlier `source`. |
| Composition.AnnotatedField | packages/fusion/composition/src/index.ts:72-142 | A field of a root type reads `resolver` as `{subgraph, operation}` and `source` as `{subgraph, name}`. Every other field of an object, interface or input type reads `source` as `{subgraph, name}`. Any other directive name reads the arguments of its last directive; for a field outside the root types this includes `resolver`. |
| Composition.AnnotatedEnumValue | packages/fusion/composition/src/index.ts:85-97 | An enum value is tagged with `source{subgraph, name}`. |
| Composition.AnnotatedRoots | packages/fusion/composition/src/index.ts:47-57 | With distinct root types, the annotated schema's roots are `Query`, `Mutation` and `Subscription`, as present. |
| Composition.BuildResolverOperation | packages/fusion/composition/src/index.ts:98-123 | The loop over the arguments and the template assembly produce exactly the resolver operation text. |
| ResolverText.ReadResolverOperation | packages/fusion/composition/src/index.ts:99-123 | The resolver operation of a root field reads back as an operation of the field's kind named `opName`. It declares, in argument order, `$a: T` for each argument, with ` = v` only for a truthy default. It selects the field with each argument bound to the same-named variable. |
| ResolverText.ReadListJoin | packages/fusion/composition/src/index.ts:119-122 | A list joined by `, ` splits back into its items. |
| ResolverText.ReadHeaderOf | packages/fusion/composition/src/index.ts:119-123 | A name followed by a parenthesized list reads back as the name and the list. With no items there are no parentheses. |
| ResolverText.ReadVariableDefinitionOf | packages/fusion/composition/src/index.ts:107-114 | One variable definition reads back as the argument's name, printed type and truthy default. |
| ResolverText.ReadBindingOf | packages/fusion/composition/src/index.ts:116 | `a: $a` reads back as argument `a` bound to variable `a`. |
| Composition.ResolverOperationOfPlainQueryField | packages/fusion/composition/src/index.ts:99-123 | A query field without arguments gives `query a { a }`. |
| Composition.SampleVariableDefinitions | packages/fusion/composition/src/index.ts:104-121 | The arguments `a: Int!` and `b: Int = 1` give `($a: Int!, $b: Int = 1)`. |
| Composition.SampleFieldArguments | packages/fusion/composition/src/index.ts:116-122 | The same arguments give `(a: $a, b: $b)`. |
| Composition.ResolverOperationOfMutationWithArguments | packages/fusion/composition/src/index.ts:99-123 | Mutation field `f` gives `mutation mutationf($a: Int!, $b: Int = 1) { f(a: $a, b: $b) }`. |
| Composition.DefaultValuesInVariableDefinitions | packages/fusion/composition/src/index.ts:107-114 | Falsy defaults `0` and `""` are not written. The string default `a"b` is written JSON-quoted as `"a\"b"`. |
| Composition.StringDefaultReadsBack | packages/fusion/composition/src/index.ts:110-111 | A written string default unquotes to the original string. |
| Values.QuoteRoundTrip | packages/fusion/composition/src/index.ts:111 | `JSON.stringify` of a string reads back as that string. |
| Composition.ComposeSubgraphs | packages/fusion/composition/src/index.ts:32-152 | One annotated schema per subgraph, in order. Each is the subgraph annotated with its own name and then passed through its transforms in list order. |
| Composition.ApplyTransformsAppend | packages/fusion/composition/src/index.ts:145-151 | Applying `first + second` is applying `first`, then `second` to its result. |
| Composition.ApplyTransformsInOrder | packages/fusion/composition/src/index.ts:145-151 | No transforms leave the annotated schema as is. One transform is applied to it. Lists compose in order. |
| Composition.RenameTypes | packages/fusion/composition/src/index.ts:172-187 | Every type gets its new name. Specified scalars and types outside the mapper kind keep theirs. Otherwise the type takes `renameFn`'s result, or its old name when that is empty. |
| Composition.RenamedTypeName | packages/fusion/composition/src/index.ts:172-187 | The name of the i-th type after the transform, case by case. |
| Composition.RenameTypesFallback | packages/fusion/composition/src/index.ts:172-187 | When `renameFn` always returns the empty string, the schema is unchanged. |
| Composition.RenameTypesRewiresFieldTypes | packages/fusion/composition/src/index.ts:172-187 | With distinct type names, a field referring to a renamed type refers to its new name. |
| Composition.RenameFields | packages/fusion/composition/src/index.ts:196-214 | Root types and type names are unchanged. Each field the mapper kind covers takes `renameFn`'s result, or its old name when that is empty. |
| Composition.RenamedFieldName | packages/fusion/composition/src/index.ts:196-214 | The name of a given field after the transform, case by case. |
| Composition.RenameFieldsFallback | packages/fusion/composition/src/index.ts:196-214 | When `renameFn` always returns the empty string, the schema is unchanged. |
| Runtime.GetSubgraphTransportMap | packages/fusion/runtime/src/index.ts:34-48 | The loop over the `transport` directives builds exactly the transport map, which is empty when there are none. |
| Runtime.TransportMapLastWins | packages/fusion/runtime/src/index.ts:34-48 | Each subgraph maps to the entry of its last `transport` directive. |
| Runtime.TransportMapKeys | packages/fusion/runtime/src/index.ts:34-48 | A subgraph has an entry iff some `transport` directive names it. |
| Runtime.LastEntryFound | packages/fusion/runtime/src/index.ts:38-45 | A last entry exists exactly for the names some directive carries. |
| Runtime.RestOptionsMembers | packages/fusion/runtime/src/index.ts:38 | `options` holds every field of the directive except `kind`, `subgraph`, `location` and `headers`. |
| Runtime.Payload | packages/fusion/runtime/src/index.ts:100-112 | A hook sees the subgraph, the request and the current executor. Without a transport entry, all transport fields are absent. |
| Runtime.CollectHooks | packages/fusion/runtime/src/index.ts:74-81 | The loop collects the hooks of the plugins that have one, in plugin order. |
| Runtime.CollectedHooksCount | packages/fusion/runtime/src/index.ts:74-81 | There are at most as many hooks as plugins. There are none iff no plugin has one. |
| Runtime.ExecuteHooked | packages/fusion/runtime/src/index.ts:95-133 | The before loop, the call and the done loop give exactly the hooked result and the executor left current. |
| Runtime.BeforeChainKeepsExecutor | packages/fusion/runtime/src/index.ts:99-116 | When no hook calls `setExecutor`, the starting executor is used. |
| Runtime.SetExecutorReachesNextHook | packages/fusion/runtime/src/index.ts:99-116 | After a hook calls `setExecutor(e)`, the next hook sees `e`. |
| Runtime.BeforeChainAppend | packages/fusion/runtime/src/index.ts:99-116 | Running hooks `a + b` runs `a`, then `b` from the executor `a` left. The done hooks of `a` come before those of `b`. |
| Runtime.LastSetExecutorWins | packages/fusion/runtime/src/index.ts:99-132 | When a hook sets `e` and no later hook sets an executor, every later hook sees `e`. The call then runs on `e`, and the cell keeps `e`. |
| Runtime.DoneChainKeepsResult | packages/fusion/runtime/src/index.ts:117-128 | When no done hook calls `setResult`, the executor's result is returned. |
| Runtime.DoneChainAppend | packages/fusion/runtime/src/index.ts:117-128 | Done hooks run in registration order. Hooks registered later run on the result the earlier ones left. |
| Runtime.LastSetResultWins | packages/fusion/runtime/src/index.ts:117-128 | When a done hook, given the latest result, sets `v` and no later hook sets a result, the answer is `v`. |
| Runtime.SupergraphExecutor.constructor | packages/fusion/runtime/src/index.ts:65-83 | The executor starts with the collected hooks, the transport map and an empty executor map. |
| Runtime.SupergraphExecutor.OnSubgraphExecute | packages/fusion/runtime/src/index.ts:85-155 | The first call for a subgraph builds its executor through `getTransportExecutor` and stores it. Later calls reuse it without building. The result is the hooked call, and a `setExecutor` persists. Other subgraphs' executors are untouched. |
| Runtime.OnSubgraphExecuteTwice | packages/fusion/runtime/src/index.ts:91-153 | Two calls for one subgraph call `getTransportExecutor` at most once. |
| Runtime.SupergraphExecutor.Execute | packages/fusion/runtime/src/index.ts:157-183 | A request is answered by running the plan of its document and operation with its variables. A cached plan is not planned again. |
| Runtime.ExecuteTwice | packages/fusion/runtime/tests/runtime.spec.ts:69-73 | The same request twice gives the same answer and plans at most once. |
| Runtime.AnswerWithoutInternalFields | packages/fusion/runtime/tests/runtime.spec.ts:89-95 | An export `{a, __variable_0, b}` is answered as `{data: {a: 'a', b: 'b'}}` with no errors. |
| Runtime.PlanMemoByDocument.GetPlan | packages/fusion/runtime/src/index.ts:50-63 | The cache as written: a hit on (supergraph, document) returns the stored plan whatever the operation name. A miss plans and stores a successful plan. |
| Runtime.StalePlanForSecondOperation | packages/fusion/runtime/src/index.ts:50-63 | Asking for operation B of a document after operation A returns A's plan, not B's. |
| Runtime.PlanOfNamedOperation | packages/fusion/execution/src/operations.ts:31-56 | In the two-operation document, each name selects its own operation, with defaults `{x: 1}` and `{}`. |
| Runtime.PlanMemo.GetPlan | packages/fusion/runtime/src/index.ts:50-63 | Every answer is the plan of (supergraph, document, operation name). A hit does not plan again, a miss plans once, and successful plans are kept. |
| Runtime.OnExecute | packages/fusion/runtime/src/index.ts:276-284 | An operation named `IntrospectionQuery`, and only that, is answered with the introspection as `data`. Any other gets the supergraph executor. |
| Runtime.ToExecutionRequest | packages/fusion/runtime/src/index.ts:217-233 | `document`, `operationName` and `rootValue` keep their names. `variableValues` becomes `variables`, and `contextValue` becomes `context`. |
| Runtime.ExecutionRequestInjective | packages/fusion/runtime/src/index.ts:217-233 | Two calls of `execute` give the same request only if all their arguments agree, so no argument is lost. |

## Findings

| source | as written | input that shows it | evidently intended | confidence | as-written member | corrected member |
|---|---|---|---|---|---|---|
| packages/fusion/runtime/src/index.ts:50-63 | The plan cache is `memoize2of4`, so it is keyed on the supergraph and the document only. The operation name is ignored. | One document with operations `A($x: Int = 1)` and `B`, executed with operation name `A` and then `B`. The second request gets A's plan, with default variables `{x: 1}`, instead of B's. | Key the cache on the operation name as well. | medium; not executed | Runtime.StalePlanForSecondOperation | Runtime.PlanMemo.GetPlan |

`Runtime.PlanMemoByDocument` models the cache as written. `Runtime.SupergraphExecutor`
uses the corrected `Runtime.PlanMemo`.

## Left out

- Asynchronous paths (`isPromise` branches, `await`) are left out. Only the synchronous
  outcome is modelled; an asynchronously built executor can race and is not covered.
- The engine's calls back into `onSubgraphExecute` are not connected. `Engine` is an
  opaque parameter, and `OnSubgraphExecute` is modelled and proved on its own. The
  engine is given the plan and the merged variables only; the `context` the source also
  passes it is not modelled, and nothing proved depends on it.
- Executors are identities (`ExecutorId`), and what they answer is the parameter `Run`.
  Executors are therefore deterministic functions of identity and request.
- Schemas and documents are compared by value. The source keys its caches by object
  identity.
- `setInterval` polling, the Yoga plugin lifecycle (`onYogaInit`, `onRequestParse`,
  `onEnveloped`, `invalidateSupergraph`, `ensureSchema`) and the `DEBUG` plan
  serialisation in `handleOpExecResult` are left out, as they are I/O and environment.
- These library calls are not part of this model:
  - `mergeSchemas`. `ComposeSubgraphs` returns the list of annotated schemas it would
    merge.
  - `buildASTSchema`, `getDocumentNodeFromSchema` and `printSchemaWithDirectives`. The
    extractor works on the definition tree directly.
  - `getRootTypeMap`, `getDirectives` and `introspectionFromSchema`. The introspection
    result is a parameter.
- `mapSchema`'s dispatch is idealised:
  - every named type goes to TYPE;
  - fields of the root types go to ROOT_FIELD;
  - other fields go to FIELD;
  - enum values go to ENUM_VALUE.

  Its rewiring of type references after renames is modelled for field, argument and
  root references only.
- Composition.AnnotatedRoots: stated only for schemas whose root types are distinct. A
  type serving as two roots takes the last root's name.
- Operations.ValueFromAst: a number literal is kept as the literal's text, not
  canonicalised as JavaScript would print the parsed number. A variable inside a
  default reads from the defaults collected so far. A missing variable reads as null,
  where JavaScript gives `undefined`.
- Plain JavaScript objects used as maps: inherited prototype keys (`constructor`,
  `__proto__`) and the ordering of integer-like keys are not modelled. Object keys keep
  insertion order.
- Name collisions produced by a rename transform are not modelled. Renames are applied
  through a name map, where the later type of a clashing name wins.
- ResolverText.ReadResolverOperation: assumes GraphQL names, and defaults whose printed
  form has neither `,` nor `{`. Other defaults, such as `[1,2]` or an object, are
  written by the source but not covered by the reader.
- Runtime.SupergraphExecutor.Execute: runs on the corrected plan cache `PlanMemo`, keyed on
  the operation name as well. With the cache as written (`PlanMemoByDocument`), a second
  operation of the same document gets the first operation's plan, as the Findings row
  shows.
- Runtime.ExecuteTwice: "plans at most once" is stated for a successful plan only. The
  cache does not keep planning errors, so a failing request is planned again each time.
- Runtime.OnSubgraphExecuteTwice: states only the build count. Its results can differ
  when a hook calls `setExecutor`, as in the source.
- `loadGraphQLHTTPSubgraph`, the loaders, the HTTP handler and the CLIs are not part of
  this model.

=== FILE: composition.dfy ===
/** Composition of subgraphs into a supergraph: each subgraph schema is annotated with
    where its elements come from (`source`) and how its root fields are fetched
    (`resolver`), then passed through its own transforms. The structural merge of the
    annotated schemas is not part of this model. */
module Composition {
  import opened Outcomes
  import opened Values
  import opened Syntax

  /** The argument object of one directive. */
  type Args = seq<(string, Json)>

  /** Directives of a schema element, as name / argument-object pairs. Read from an element
      they form a list (a repeatable directive may occur more than once); the annotator
      writes them back as a record, one entry per name. */
  type Directives = seq<(string, Args)>

  datatype TypeKind = ScalarKind | ObjectKind | InterfaceKind | UnionKind | EnumKind | InputObjectKind

  datatype ArgumentDef = ArgumentDef(name: string, typeRef: TypeRef, defaultValue: Option<Json>, directives: Directives)

  /** A field of an object or interface type, or an input field (which has no arguments). */
  datatype FieldDef = FieldDef(name: string, typeRef: TypeRef, args: seq<ArgumentDef>, directives: Directives)

  datatype EnumValueDef = EnumValueDef(name: string, directives: Directives)

  datatype TypeDef = TypeDef(kind: TypeKind, name: string, fields: seq<FieldDef>, values: seq<EnumValueDef>,
                             directives: Directives)

  datatype Schema = Schema(queryType: Option<string>, mutationType: Option<string>, subscriptionType: Option<string>,
                           types: seq<TypeDef>)

  /** What a transform is told about the subgraph it runs for. */
  datatype SubgraphRef = SubgraphRef(name: string, schema: Schema)

  datatype SubgraphConfig = SubgraphConfig(name: string, schema: Schema,
                                           transforms: seq<(Schema, SubgraphRef) -> Schema>)

  /** `defaultRootTypeNames`. */
  function DefaultRootTypeName(t: OperationType): string {
    match t
    case Query => "Query"
    case Mutation => "Mutation"
    case Subscription => "Subscription"
  }

  /** `isSpecifiedScalarType`. */
  predicate IsSpecifiedScalar(t: TypeDef) {
    t.kind == ScalarKind && t.name in {"Int", "Float", "String", "Boolean", "ID"}
  }

  predicate HasFields(k: TypeKind) {
    k == ObjectKind || k == InterfaceKind || k == InputObjectKind
  }

  // ----- getDirectiveExtensions -----

  /** The record `getDirectiveExtensions` builds: one entry per directive name, holding the
      arguments of the last directive of that name. */
  function DirectiveExtensions(ds: Directives): Directives {
    if ds == [] then []
    else Put(DirectiveExtensions(ds[..|ds| - 1]), ds[|ds| - 1].0, ds[|ds| - 1].1)
  }

  /** The arguments of the last directive named `name`, scanning the list from its end. */
  function LastArgs(ds: Directives, name: string): Option<Args> {
    if ds == [] then None
    else if ds[|ds| - 1].0 == name then Some(ds[|ds| - 1].1)
    else LastArgs(ds[..|ds| - 1], name)
  }

  method GetDirectiveExtensions(ds: Directives) returns (directivesObject: Directives)
    ensures directivesObject == DirectiveExtensions(ds)
  {
    directivesObject := [];
    for i := 0 to |ds|
      invariant directivesObject == DirectiveExtensions(ds[..i])
    {
      assert ds[..i + 1][..i] == ds[..i];
      directivesObject := Put(directivesObject, ds[i].0, ds[i].1);
    }
    assert ds[..|ds|] == ds;
  }

  /** Each directive name maps to the arguments of its last occurrence; names that do not
      occur are absent. */
  lemma {:induction false} DirectiveExtensionsLastWins(ds: Directives, name: string)
    ensures Get(DirectiveExtensions(ds), name) == LastArgs(ds, name)
  {
    if ds != [] {
      DirectiveExtensionsLastWins(ds[..|ds| - 1], name);
      GetPut(DirectiveExtensions(ds[..|ds| - 1]), ds[|ds| - 1].0, ds[|ds| - 1].1, name);
    }
  }

  /** The record holds each directive name once. */
  lemma {:induction false} DirectiveExtensionsUnique(ds: Directives)
    ensures UniqueKeys(DirectiveExtensions(ds))
  {
    if ds != [] {
      DirectiveExtensionsUnique(ds[..|ds| - 1]);
      PutKeepsKeysUnique(DirectiveExtensions(ds[..|ds| - 1]), ds[|ds| - 1].0, ds[|ds| - 1].1);
    }
  }

  // ----- the root types of a subgraph -----

  /** `getRootTypeMap`: the root type of each operation kind that has one, in the order
      query, mutation, subscription. */
  function RootTypeMap(s: Schema): seq<(OperationType, string)> {
    (if s.queryType.Some? then [(Query, s.queryType.value)] else []) +
    (if s.mutationType.Some? then [(Mutation, s.mutationType.value)] else []) +
    (if s.subscriptionType.Some? then [(Subscription, s.subscriptionType.value)] else [])
  }

  /** `typeToOperationType`, filled from the root type map in order. */
  function TypeToOperationType(roots: seq<(OperationType, string)>): map<string, OperationType> {
    if roots == [] then map[]
    else TypeToOperationType(roots[..|roots| - 1])[roots[|roots| - 1].1 := roots[|roots| - 1].0]
  }

  method BuildTypeToOperationType(s: Schema) returns (typeToOperationType: map<string, OperationType>)
    ensures typeToOperationType == TypeToOperationType(RootTypeMap(s))
  {
    var rootTypeMap := RootTypeMap(s);
    typeToOperationType := map[];
    for i := 0 to |rootTypeMap|
      invariant typeToOperationType == TypeToOperationType(rootTypeMap[..i])
    {
      assert rootTypeMap[..i + 1][..i] == rootTypeMap[..i];
      var (operationType, rootType) := rootTypeMap[i];
      typeToOperationType := typeToOperationType[rootType := operationType];
    }
    assert rootTypeMap[..|rootTypeMap|] == rootTypeMap;
  }

  /** Every root type name is mapped to the last operation kind it is the root of. */
  lemma {:induction false} TypeToOperationTypeLastWins(roots: seq<(OperationType, string)>, name: string)
    ensures name in TypeToOperationType(roots) <==> exists i :: 0 <= i < |roots| && roots[i].1 == name
    ensures name in TypeToOperationType(roots) ==>
              exists i :: 0 <= i < |roots| && roots[i] == (TypeToOperationType(roots)[name], name) &&
                          forall j :: i < j < |roots| ==> roots[j].1 != name
  {
    if roots != [] {
      var init := roots[..|roots| - 1];
      TypeToOperationTypeLastWins(init, name);
      if roots[|roots| - 1].1 != name && name in TypeToOperationType(roots) {
        var i :| 0 <= i < |init| && init[i] == (TypeToOperationType(init)[name], name) &&
                 forall j :: i < j < |init| ==> init[j].1 != name;
        assert roots[i] == init[i];
      }
      if exists i :: 0 <= i < |init| && init[i].1 == name {
        var i :| 0 <= i < |init| && init[i].1 == name;
        assert roots[i] == init[i];
      }
      if exists i :: 0 <= i < |roots| && roots[i].1 == name {
        var i :| 0 <= i < |roots| && roots[i].1 == name;
        if i < |init| { assert init[i] == roots[i]; }
      }
    }
  }

  // ----- the synthesized resolver operation of a root field -----

  /** The operation name: the field name for queries, the keyword followed by the field
      name otherwise. */
  function OperationName(t: OperationType, fieldName: string): string {
    if t == Query then fieldName else Keyword(t) + fieldName
  }

  /** How a default value is written after ` = `: strings JSON-quoted, anything else as a
      template literal prints it. */
  function DefaultText(v: Json): string {
    if v.JString? then Quote(v.s) else ToString(v)
  }

  /** `$a: T`, followed by ` = v` when the default is truthy. */
  function VariableDefinitionText(a: ArgumentDef): string {
    "$" + a.name + ": " + PrintType(a.typeRef) +
    (if a.defaultValue.Some? && Truthy(a.defaultValue.value) then " = " + DefaultText(a.defaultValue.value) else "")
  }

  /** `a: $a`. */
  function ArgumentText(a: ArgumentDef): string {
    a.name + ": $" + a.name
  }

  function VariableDefinitionTexts(args: seq<ArgumentDef>): (r: seq<string>)
    ensures |r| == |args| && forall i :: 0 <= i < |args| ==> r[i] == VariableDefinitionText(args[i])
  {
    seq(|args|, i requires 0 <= i < |args| => VariableDefinitionText(args[i]))
  }

  function ArgumentTexts(args: seq<ArgumentDef>): (r: seq<string>)
    ensures |r| == |args| && forall i :: 0 <= i < |args| ==> r[i] == ArgumentText(args[i])
  {
    seq(|args|, i requires 0 <= i < |args| => ArgumentText(args[i]))
  }

  /** A list in parentheses joined by `, `, or nothing at all for an empty list. */
  function Parenthesized(parts: seq<string>): string {
    if |parts| == 0 then "" else "(" + Join(parts, ", ") + ")"
  }

  /** The single-field operation a root field is resolved with. */
  function ResolverOperation(t: OperationType, f: FieldDef): string {
    Keyword(t) + " " + OperationName(t, f.name) + Parenthesized(VariableDefinitionTexts(f.args)) +
    " { " + f.name + Parenthesized(ArgumentTexts(f.args)) + " }"
  }

  /** The loop of the ROOT_FIELD mapper that collects variable definitions and field
      arguments, then assembles the operation string. */
  method BuildResolverOperation(t: OperationType, f: FieldDef) returns (operationString: string)
    ensures operationString == ResolverOperation(t, f)
  {
    var operationName := if t == Query then f.name else Keyword(t) + f.name;
    var variableDefinitions: seq<string> := [];
    var rootFieldArgs: seq<string> := [];
    for i := 0 to |f.args|
      invariant variableDefinitions == VariableDefinitionTexts(f.args[..i])
      invariant rootFieldArgs == ArgumentTexts(f.args[..i])
    {
      var arg := f.args[i];
      var variableDefinitionStr := "$" + arg.name + ": " + PrintType(arg.typeRef);
      if arg.defaultValue.Some? && Truthy(arg.defaultValue.value) {
        variableDefinitionStr := variableDefinitionStr + " = " +
          (if arg.defaultValue.value.JString? then Quote(arg.defaultValue.value.s) else ToString(arg.defaultValue.value));
      }
      assert variableDefinitionStr == VariableDefinitionText(arg);
      assert f.args[..i + 1] == f.args[..i] + [arg];
      variableDefinitions := variableDefinitions + [variableDefinitionStr];
      rootFieldArgs := rootFieldArgs + [arg.name + ": $" + arg.name];
    }
    assert f.args[..|f.args|] == f.args;
    var variableDefinitionsString := if |variableDefinitions| > 0 then "(" + Join(variableDefinitions, ", ") + ")" else "";
    var rootFieldArgsString := if |rootFieldArgs| > 0 then "(" + Join(rootFieldArgs, ", ") + ")" else "";
    operationString := Keyword(t) + " " + operationName + variableDefinitionsString + " { " + f.name + rootFieldArgsString + " }";
  }

  // ----- the mappers -----

  function SourceArgs(subgraph: string, name: string): Args {
    [("subgraph", JString(subgraph)), ("name", JString(name))]
  }

  function ResolverArgs(subgraph: string, operation: string): Args {
    [("subgraph", JString(subgraph)), ("operation", JString(operation))]
  }

  /** An element's directives rewritten as a record with `source` set (an earlier `source`
      entry keeps its place and takes the new value). */
  function WithSource(ds: Directives, subgraph: string, name: string): Directives {
    Put(DirectiveExtensions(ds), "source", SourceArgs(subgraph, name))
  }

  /** The FIELD mapper. */
  function TagField(f: FieldDef, subgraph: string): FieldDef {
    f.(directives := WithSource(f.directives, subgraph, f.name))
  }

  /** The ROOT_FIELD mapper. */
  function TagRootField(f: FieldDef, subgraph: string, t: OperationType): FieldDef {
    f.(directives := Put(Put(DirectiveExtensions(f.directives), "resolver", ResolverArgs(subgraph, ResolverOperation(t, f))),
                         "source", SourceArgs(subgraph, f.name)))
  }

  /** The ENUM_VALUE mapper; the external value of an enum value is its name. */
  function TagEnumValue(v: EnumValueDef, subgraph: string): EnumValueDef {
    v.(directives := WithSource(v.directives, subgraph, v.name))
  }

  /** The TYPE mapper followed by the field and enum-value mappers on what the type holds. */
  function AnnotateType(t: TypeDef, subgraph: string, typeToOperationType: map<string, OperationType>): TypeDef {
    if IsSpecifiedScalar(t) then t
    else if t.name in typeToOperationType then
      var op := typeToOperationType[t.name];
      t.(name := DefaultRootTypeName(op),
         fields := seq(|t.fields|, i requires 0 <= i < |t.fields| => TagRootField(t.fields[i], subgraph, op)))
    else
      t.(directives := WithSource(t.directives, subgraph, t.name),
         fields := if HasFields(t.kind) then seq(|t.fields|, i requires 0 <= i < |t.fields| => TagField(t.fields[i], subgraph))
                   else t.fields,
         values := if t.kind == EnumKind then seq(|t.values|, i requires 0 <= i < |t.values| => TagEnumValue(t.values[i], subgraph))
                   else t.values)
  }

  // ----- rewiring type references after renaming types -----

  function RewireRef(r: TypeRef, renames: map<string, string>): TypeRef {
    match r
    case NamedType(n) => NamedType(if n in renames then renames[n] else n)
    case ListType(inner) => ListType(RewireRef(inner, renames))
    case NonNullType(inner) => NonNullType(RewireRef(inner, renames))
  }

  function RewireArgument(a: ArgumentDef, renames: map<string, string>): ArgumentDef {
    a.(typeRef := RewireRef(a.typeRef, renames))
  }

  function RewireField(f: FieldDef, renames: map<string, string>): FieldDef {
    f.(typeRef := RewireRef(f.typeRef, renames),
       args := seq(|f.args|, i requires 0 <= i < |f.args| => RewireArgument(f.args[i], renames)))
  }

  function RewireType(t: TypeDef, renames: map<string, string>): TypeDef {
    t.(fields := seq(|t.fields|, i requires 0 <= i < |t.fields| => RewireField(t.fields[i], renames)))
  }

  function RenameRoot(root: Option<string>, renames: map<string, string>): Option<string> {
    match root
    case None => None
    case Some(n) => Some(if n in renames then renames[n] else n)
  }

  /** The `mapSchema` call of one subgraph, given its `typeToOperationType`. */
  function AnnotateWith(subgraph: string, s: Schema, typeToOperationType: map<string, OperationType>): Schema {
    var renames := map n | n in typeToOperationType :: DefaultRootTypeName(typeToOperationType[n]);
    Schema(RenameRoot(s.queryType, renames), RenameRoot(s.mutationType, renames), RenameRoot(s.subscriptionType, renames),
           seq(|s.types|, i requires 0 <= i < |s.types| =>
                 RewireType(AnnotateType(s.types[i], subgraph, typeToOperationType), renames)))
  }

  function Annotate(subgraph: string, s: Schema): Schema {
    AnnotateWith(subgraph, s, TypeToOperationType(RootTypeMap(s)))
  }

  // ----- transforms -----

  /** The transforms applied in list order, each to the output of the previous one. */
  function ApplyTransforms(s: Schema, transforms: seq<(Schema, SubgraphRef) -> Schema>, ref: SubgraphRef): Schema {
    if transforms == [] then s
    else transforms[|transforms| - 1](ApplyTransforms(s, transforms[..|transforms| - 1], ref), ref)
  }

  /** Applying a list of transforms is applying its first part, then the rest. */
  lemma {:induction false} ApplyTransformsAppend(s: Schema, first: seq<(Schema, SubgraphRef) -> Schema>,
                                                 second: seq<(Schema, SubgraphRef) -> Schema>, ref: SubgraphRef)
    ensures ApplyTransforms(s, first + second, ref) == ApplyTransforms(ApplyTransforms(s, first, ref), second, ref)
  {
    if second == [] {
      assert first + second == first;
    } else {
      var init := second[..|second| - 1];
      ApplyTransformsAppend(s, first, init, ref);
      assert (first + second)[..|first + second| - 1] == first + init;
      assert (first + second)[|first + second| - 1] == second[|second| - 1];
    }
  }

  /** `composeSubgraphs` up to the final merge: one annotated, transformed schema per
      subgraph, in order. */
  method ComposeSubgraphs(subgraphs: seq<SubgraphConfig>) returns (annotatedSubgraphs: seq<Schema>)
    ensures |annotatedSubgraphs| == |subgraphs|
    ensures forall i :: 0 <= i < |subgraphs| ==>
              annotatedSubgraphs[i] == ApplyTransforms(Annotate(subgraphs[i].name, subgraphs[i].schema),
                                                       subgraphs[i].transforms,
                                                       SubgraphRef(subgraphs[i].name, subgraphs[i].schema))
  {
    annotatedSubgraphs := [];
    for k := 0 to |subgraphs|
      invariant |annotatedSubgraphs| == k
      invariant forall i :: 0 <= i < k ==>
                  annotatedSubgraphs[i] == ApplyTransforms(Annotate(subgraphs[i].name, subgraphs[i].schema),
                                                           subgraphs[i].transforms,
                                                           SubgraphRef(subgraphs[i].name, subgraphs[i].schema))
    {
      var transformedSubgraph := ComposeSubgraph(subgraphs[k]);
      annotatedSubgraphs := annotatedSubgraphs + [transformedSubgraph];
    }
  }

  /** One subgraph of the loop above: annotate it, then run its transforms in order. */
  method ComposeSubgraph(config: SubgraphConfig) returns (transformedSubgraph: Schema)
    ensures transformedSubgraph == ApplyTransforms(Annotate(config.name, config.schema), config.transforms,
                                                   SubgraphRef(config.name, config.schema))
  {
    var typeToOperationType := BuildTypeToOperationType(config.schema);
    var annotatedSubgraph := AnnotateWith(config.name, config.schema, typeToOperationType);
    var ref := SubgraphRef(config.name, config.schema);
    transformedSubgraph := annotatedSubgraph;
    if |config.transforms| > 0 {
      for j := 0 to |config.transforms|
        invariant transformedSubgraph == ApplyTransforms(annotatedSubgraph, config.transforms[..j], ref)
      {
        assert config.transforms[..j + 1][..j] == config.transforms[..j];
        transformedSubgraph := config.transforms[j](transformedSubgraph, ref);
      }
      assert config.transforms[..|config.transforms|] == config.transforms;
    }
  }

  // ----- rename transforms -----

  /** The type mapper kinds a rename transform can be registered under. */
  datatype MapperTypeKind = RootObjectMapper | ObjectTypeMapper | InterfaceTypeMapper | UnionTypeMapper
                          | EnumTypeMapper | InputObjectTypeMapper | ScalarTypeMapper | AnyTypeMapper

  /** Whether a mapper registered under `kind` is the one `mapSchema` calls for `t`. */
  predicate TypeMapperApplies(kind: MapperTypeKind, t: TypeDef, isRoot: bool) {
    match kind
    case AnyTypeMapper => true
    case RootObjectMapper => t.kind == ObjectKind && isRoot
    case ObjectTypeMapper => t.kind == ObjectKind
    case InterfaceTypeMapper => t.kind == InterfaceKind
    case UnionTypeMapper => t.kind == UnionKind
    case EnumTypeMapper => t.kind == EnumKind
    case InputObjectTypeMapper => t.kind == InputObjectKind
    case ScalarTypeMapper => t.kind == ScalarKind
  }

  predicate IsRootName(s: Schema, name: string) {
    s.queryType == Some(name) || s.mutationType == Some(name) || s.subscriptionType == Some(name)
  }

  /** `renameFn(type) || type.name` where the mapper applies, the old name elsewhere;
      specified scalars keep their names. */
  function NewTypeName(t: TypeDef, s: Schema, ref: SubgraphRef, renameFn: (TypeDef, SubgraphRef) -> string,
                       kind: MapperTypeKind): string {
    if IsSpecifiedScalar(t) || !TypeMapperApplies(kind, t, IsRootName(s, t.name)) then t.name
    else
      var n := renameFn(t, ref);
      if n != "" then n else t.name
  }

  /** Old type name to new type name, for every type of the schema. */
  function TypeRenames(ts: seq<TypeDef>, s: Schema, ref: SubgraphRef, renameFn: (TypeDef, SubgraphRef) -> string,
                       kind: MapperTypeKind): map<string, string> {
    if ts == [] then map[]
    else TypeRenames(ts[..|ts| - 1], s, ref, renameFn, kind)[ts[|ts| - 1].name := NewTypeName(ts[|ts| - 1], s, ref, renameFn, kind)]
  }

  function RenameTypes(s: Schema, ref: SubgraphRef, renameFn: (TypeDef, SubgraphRef) -> string,
                       kind: MapperTypeKind): (r: Schema)
    ensures |r.types| == |s.types|
    ensures forall i :: 0 <= i < |s.types| ==> r.types[i].name == NewTypeName(s.types[i], s, ref, renameFn, kind)
  {
    var renames := TypeRenames(s.types, s, ref, renameFn, kind);
    Schema(RenameRoot(s.queryType, renames), RenameRoot(s.mutationType, renames), RenameRoot(s.subscriptionType, renames),
           seq(|s.types|, i requires 0 <= i < |s.types| =>
                 RewireType(s.types[i].(name := NewTypeName(s.types[i], s, ref, renameFn, kind)), renames)))
  }

  /** `createRenameTypeTransform(renameFn, kind)`. */
  function CreateRenameTypeTransform(renameFn: (TypeDef, SubgraphRef) -> string, kind: MapperTypeKind)
    : (Schema, SubgraphRef) -> Schema
  {
    (s: Schema, ref: SubgraphRef) => RenameTypes(s, ref, renameFn, kind)
  }

  /** The field mapper kinds a rename transform can be registered under. */
  datatype MapperFieldKind = AnyFieldMapper | RootFieldMapper | ObjectFieldMapper | InterfaceFieldMapper
                           | InputObjectFieldMapper

  predicate FieldMapperApplies(kind: MapperFieldKind, t: TypeDef, isRoot: bool) {
    match kind
    case AnyFieldMapper => HasFields(t.kind)
    case RootFieldMapper => t.kind == ObjectKind && isRoot
    case ObjectFieldMapper => t.kind == ObjectKind
    case InterfaceFieldMapper => t.kind == InterfaceKind
    case InputObjectFieldMapper => t.kind == InputObjectKind
  }

  /** `renameFn(field, fieldName, typeName) || fieldName` where the mapper applies. */
  function NewFieldName(f: FieldDef, t: TypeDef, s: Schema, ref: SubgraphRef,
                        renameFn: (FieldDef, string, string, SubgraphRef) -> string, kind: MapperFieldKind): string {
    if !FieldMapperApplies(kind, t, IsRootName(s, t.name)) then f.name
    else
      var n := renameFn(f, f.name, t.name, ref);
      if n != "" then n else f.name
  }

  function RenameFields(s: Schema, ref: SubgraphRef, renameFn: (FieldDef, string, string, SubgraphRef) -> string,
                        kind: MapperFieldKind): (r: Schema)
    ensures r.queryType == s.queryType && r.mutationType == s.mutationType && r.subscriptionType == s.subscriptionType
    ensures |r.types| == |s.types|
    ensures forall i :: 0 <= i < |s.types| ==>
              (r.types[i].name == s.types[i].name && |r.types[i].fields| == |s.types[i].fields| &&
               forall j :: 0 <= j < |s.types[i].fields| ==>
                 r.types[i].fields[j] == s.types[i].fields[j].(name := NewFieldName(s.types[i].fields[j], s.types[i], s, ref, renameFn, kind)))
  {
    s.(types := seq(|s.types|, i requires 0 <= i < |s.types| =>
                      var t := s.types[i];
                      t.(fields := seq(|t.fields|, j requires 0 <= j < |t.fields| =>
                                         t.fields[j].(name := NewFieldName(t.fields[j], t, s, ref, renameFn, kind))))))
  }

  /** `createRenameFieldTransform(renameFn, kind)`. */
  function CreateRenameFieldTransform(renameFn: (FieldDef, string, string, SubgraphRef) -> string, kind: MapperFieldKind)
    : (Schema, SubgraphRef) -> Schema
  {
    (s: Schema, ref: SubgraphRef) => RenameFields(s, ref, renameFn, kind)
  }

  // ----- properties of the annotation -----

  /** A `source` tag written over the directive extensions: `source` reads the tag, every
      other name the arguments of its last directive. */
  lemma WithSourceTags(ds: Directives, subgraph: string, name: string)
    ensures Get(WithSource(ds, subgraph, name), "source") == Some(SourceArgs(subgraph, name))
    ensures forall k :: k != "source" ==> Get(WithSource(ds, subgraph, name), k) == LastArgs(ds, k)
  {
    GetPut(DirectiveExtensions(ds), "source", SourceArgs(subgraph, name), "source");
    forall k | k != "source"
      ensures Get(WithSource(ds, subgraph, name), k) == LastArgs(ds, k)
    {
      DirectiveExtensionsLastWins(ds, k);
      GetPut(DirectiveExtensions(ds), "source", SourceArgs(subgraph, name), k);
    }
  }

  /** A root field's tags: `resolver` with its operation, `source` with its name, every
      other name the arguments of its last directive. */
  lemma RootFieldTags(f: FieldDef, subgraph: string, t: OperationType)
    ensures Get(TagRootField(f, subgraph, t).directives, "source") == Some(SourceArgs(subgraph, f.name))
    ensures Get(TagRootField(f, subgraph, t).directives, "resolver") == Some(ResolverArgs(subgraph, ResolverOperation(t, f)))
    ensures forall k :: k != "source" && k != "resolver" ==> Get(TagRootField(f, subgraph, t).directives, k) == LastArgs(f.directives, k)
  {
    var extensions := DirectiveExtensions(f.directives);
    var resolver := ResolverArgs(subgraph, ResolverOperation(t, f));
    var withResolver := Put(extensions, "resolver", resolver);
    GetPut(withResolver, "source", SourceArgs(subgraph, f.name), "source");
    GetPut(withResolver, "source", SourceArgs(subgraph, f.name), "resolver");
    GetPut(extensions, "resolver", resolver, "resolver");
    forall k | k != "source" && k != "resolver"
      ensures Get(TagRootField(f, subgraph, t).directives, k) == LastArgs(f.directives, k)
    {
      DirectiveExtensionsLastWins(f.directives, k);
      GetPut(extensions, "resolver", resolver, k);
      GetPut(withResolver, "source", SourceArgs(subgraph, f.name), k);
    }
  }

  /** Types: specified scalars are left alone, root types take the canonical name of their
      operation kind and keep their directives, every other type is tagged with
      `source{subgraph, name}` while its other directives keep their last arguments. */
  lemma AnnotatedType(subgraph: string, s: Schema, i: nat)
    requires i < |s.types|
    ensures var t := s.types[i];
            var a := Annotate(subgraph, s).types[i];
            var roots := TypeToOperationType(RootTypeMap(s));
            (IsSpecifiedScalar(t) ==> a.name == t.name && a.directives == t.directives) &&
            (!IsSpecifiedScalar(t) && t.name in roots ==>
               a.name == DefaultRootTypeName(roots[t.name]) && a.directives == t.directives) &&
            (!IsSpecifiedScalar(t) && t.name !in roots ==>
               a.name == t.name && Get(a.directives, "source") == Some(SourceArgs(subgraph, t.name)) &&
               forall k :: k != "source" ==> Get(a.directives, k) == LastArgs(t.directives, k))
  {
    var t := s.types[i];
    WithSourceTags(t.directives, subgraph, t.name);
  }

  /** Fields of a root type carry a `resolver` with the synthesized operation and a
      `source`; other fields of object, interface and input types carry a `source`. Either
      way the field keeps its name and its other directives; a `resolver` directive of a
      field outside the root types is kept too. */
  lemma AnnotatedField(subgraph: string, s: Schema, i: nat, j: nat)
    requires i < |s.types| && j < |s.types[i].fields|
    requires !IsSpecifiedScalar(s.types[i])
    ensures var t := s.types[i];
            var f := t.fields[j];
            var roots := TypeToOperationType(RootTypeMap(s));
            var a := Annotate(subgraph, s).types[i].fields[j];
            a.name == f.name &&
            (t.name in roots || HasFields(t.kind) ==>
               Get(a.directives, "source") == Some(SourceArgs(subgraph, f.name)) &&
               forall k :: k != "source" && (k != "resolver" || t.name !in roots) ==>
                 Get(a.directives, k) == LastArgs(f.directives, k)) &&
            (t.name in roots ==>
               Get(a.directives, "resolver") == Some(ResolverArgs(subgraph, ResolverOperation(roots[t.name], f))))
  {
    var t := s.types[i];
    var f := t.fields[j];
    var roots := TypeToOperationType(RootTypeMap(s));
    if t.name in roots {
      RootFieldTags(f, subgraph, roots[t.name]);
    } else {
      WithSourceTags(f.directives, subgraph, f.name);
    }
  }

  /** Enum values carry `source{subgraph, name}` with their own name. */
  lemma AnnotatedEnumValue(subgraph: string, s: Schema, i: nat, j: nat)
    requires i < |s.types| && j < |s.types[i].values|
    requires s.types[i].kind == EnumKind && s.types[i].name !in TypeToOperationType(RootTypeMap(s))
    ensures var v := s.types[i].values[j];
            var a := Annotate(subgraph, s).types[i].values[j];
            a.name == v.name && Get(a.directives, "source") == Some(SourceArgs(subgraph, v.name)) &&
            forall k :: k != "source" ==> Get(a.directives, k) == LastArgs(v.directives, k)
  {
    var v := s.types[i].values[j];
    WithSourceTags(v.directives, subgraph, v.name);
  }

  /** With distinct root types, the annotated schema's roots are Query, Mutation and
      Subscription. */
  lemma AnnotatedRoots(subgraph: string, s: Schema)
    requires s.queryType.Some? && s.mutationType.Some? ==> s.queryType != s.mutationType
    requires s.queryType.Some? && s.subscriptionType.Some? ==> s.queryType != s.subscriptionType
    requires s.mutationType.Some? && s.subscriptionType.Some? ==> s.mutationType != s.subscriptionType
    ensures var a := Annotate(subgraph, s);
            (s.queryType.Some? <==> a.queryType == Some("Query")) &&
            (s.mutationType.Some? <==> a.mutationType == Some("Mutation")) &&
            (s.subscriptionType.Some? <==> a.subscriptionType == Some("Subscription"))
  {
    var roots := RootTypeMap(s);
    var m := TypeToOperationType(roots);
    if s.queryType.Some? {
      var q := s.queryType.value;
      TypeToOperationTypeLastWins(roots, q);
      assert roots[0] == (Query, q);
      assert forall i :: 0 <= i < |roots| && roots[i].1 == q ==> roots[i].0 == Query;
    }
    if s.mutationType.Some? {
      var q := s.mutationType.value;
      TypeToOperationTypeLastWins(roots, q);
      assert (Mutation, q) in roots;
      assert forall i :: 0 <= i < |roots| && roots[i].1 == q ==> roots[i].0 == Mutation;
    }
    if s.subscriptionType.Some? {
      var q := s.subscriptionType.value;
      TypeToOperationTypeLastWins(roots, q);
      assert roots[|roots| - 1] == (Subscription, q);
      assert forall i :: 0 <= i < |roots| && roots[i].1 == q ==> roots[i].0 == Subscription;
    }
  }

  // ----- the resolver operation on examples -----

  /** A query field without arguments. */
  lemma ResolverOperationOfPlainQueryField()
    ensures ResolverOperation(Query, FieldDef("a", NamedType("String"), [], [])) == "query a { a }"
  {
  }

  function SampleArguments(): seq<ArgumentDef> {
    [ArgumentDef("a", NonNullType(NamedType("Int")), None, []), ArgumentDef("b", NamedType("Int"), Some(JNumber("1")), [])]
  }

  lemma RequiredArgumentDefinition()
    ensures VariableDefinitionText(SampleArguments()[0]) == "$a: Int!"
  {
    assert PrintType(NonNullType(NamedType("Int"))) == "Int!";
  }

  lemma DefaultedArgumentDefinition()
    ensures VariableDefinitionText(SampleArguments()[1]) == "$b: Int = 1"
  {
    assert Truthy(JNumber("1")) && DefaultText(JNumber("1")) == "1";
    assert "$b: Int" + " = " + "1" == "$b: Int = 1";
  }

  lemma JoinTwo(x: string, y: string, sep: string)
    ensures Join([x, y], sep) == x + sep + y
  {
    assert [x, y][1..] == [y];
  }

  lemma SampleVariableTexts()
    ensures VariableDefinitionTexts(SampleArguments()) == ["$a: Int!", "$b: Int = 1"]
  {
    RequiredArgumentDefinition();
    DefaultedArgumentDefinition();
  }

  lemma SampleVariableList()
    ensures "(" + Join(["$a: Int!", "$b: Int = 1"], ", ") + ")" == "($a: Int!, $b: Int = 1)"
  {
    JoinTwo("$a: Int!", "$b: Int = 1", ", ");
    assert "$a: Int!" + ", " + "$b: Int = 1" == "$a: Int!, $b: Int = 1";
  }

  lemma SampleVariableDefinitions()
    ensures Parenthesized(VariableDefinitionTexts(SampleArguments())) == "($a: Int!, $b: Int = 1)"
  {
    SampleVariableTexts();
    SampleVariableList();
  }

  lemma SampleFieldArguments()
    ensures Parenthesized(ArgumentTexts(SampleArguments())) == "(a: $a, b: $b)"
  {
    var args := SampleArguments();
    assert ArgumentText(args[0]) == "a: $a";
    assert ArgumentText(args[1]) == "b: $b";
    var parts := ArgumentTexts(args);
    assert parts == ["a: $a", "b: $b"];
    JoinTwo("a: $a", "b: $b", ", ");
    assert "a: $a" + ", " + "b: $b" == "a: $a, b: $b";
  }

  lemma MutationOperationPieces()
    ensures ResolverOperation(Mutation, FieldDef("f", NamedType("Int"), SampleArguments(), []))
            == "mutation" + " " + "mutationf" + "($a: Int!, $b: Int = 1)" + " { " + "f" + "(a: $a, b: $b)" + " }"
  {
    SampleVariableDefinitions();
    SampleFieldArguments();
    assert OperationName(Mutation, "f") == "mutationf";
  }

  lemma MutationOperationHead()
    ensures "mutation" + " " + "mutationf" + "($a: Int!, $b: Int = 1)" == "mutation mutationf($a: Int!, $b: Int = 1)"
  {
    assert "mutation" + " " + "mutationf" == "mutation mutationf";
  }

  lemma MutationOperationOpen()
    ensures "mutation mutationf($a: Int!, $b: Int = 1)" + " { " + "f" == "mutation mutationf($a: Int!, $b: Int = 1) { f"
  {
    assert "mutation mutationf($a: Int!, $b: Int = 1)" + " { " == "mutation mutationf($a: Int!, $b: Int = 1) { ";
  }

  lemma MutationOperationClose()
    ensures "mutation mutationf($a: Int!, $b: Int = 1) { f" + "(a: $a, b: $b)" + " }"
            == "mutation mutationf($a: Int!, $b: Int = 1) { f(a: $a, b: $b) }"
  {
    assert "mutation mutationf($a: Int!, $b: Int = 1) { f" + "(a: $a, b: $b)" == "mutation mutationf($a: Int!, $b: Int = 1) { f(a: $a, b: $b)";
  }

  /** A mutation field with a required argument and a truthy numeric default: the operation
      name is the keyword glued to the field name. */
  lemma ResolverOperationOfMutationWithArguments()
    ensures ResolverOperation(Mutation, FieldDef("f", NamedType("Int"), SampleArguments(), []))
            == "mutation mutationf($a: Int!, $b: Int = 1) { f(a: $a, b: $b) }"
  {
    MutationOperationPieces();
    MutationOperationHead();
    MutationOperationOpen();
    MutationOperationClose();
  }

  /** A falsy default (0, false, "") is left out; a string default is JSON-quoted. */
  lemma DefaultValuesInVariableDefinitions()
    ensures VariableDefinitionText(ArgumentDef("first", NamedType("Int"), Some(JNumber("0")), [])) == "$first: Int"
    ensures VariableDefinitionText(ArgumentDef("q", NamedType("String"), Some(JString("")), [])) == "$q: String"
    ensures VariableDefinitionText(ArgumentDef("q", NamedType("String"), Some(JString("a\"b")), [])) == "$q: String = \"a\\\"b\""
  {
    assert Escape("a\"b") == "a\\\"b" by {
      assert "a\"b"[1..][1..][1..] == [];
    }
  }

  /** The default of a variable definition reads back as the string default it was written
      from. */
  lemma StringDefaultReadsBack(s: string)
    ensures Unquote(DefaultText(JString(s))) == Some(s)
  {
    QuoteRoundTrip(s);
  }

  // ----- properties of the rename transforms -----

  lemma {:induction false} RewireRefUnchanged(r: TypeRef, renames: map<string, string>)
    requires forall n :: n in renames ==> renames[n] == n
    ensures RewireRef(r, renames) == r
  {
    match r
    case NamedType(_) =>
    case ListType(inner) => RewireRefUnchanged(inner, renames);
    case NonNullType(inner) => RewireRefUnchanged(inner, renames);
  }

  lemma RewireTypeUnchanged(t: TypeDef, renames: map<string, string>)
    requires forall n :: n in renames ==> renames[n] == n
    ensures RewireType(t, renames) == t
  {
    forall j | 0 <= j < |t.fields| ensures RewireField(t.fields[j], renames) == t.fields[j] {
      var f := t.fields[j];
      RewireRefUnchanged(f.typeRef, renames);
      forall k | 0 <= k < |f.args| ensures RewireArgument(f.args[k], renames) == f.args[k] {
        RewireRefUnchanged(f.args[k].typeRef, renames);
      }
      assert RewireField(f, renames).args == f.args;
    }
    assert RewireType(t, renames).fields == t.fields;
  }

  lemma {:induction false} TypeRenamesUnchanged(ts: seq<TypeDef>, s: Schema, ref: SubgraphRef,
                                                 renameFn: (TypeDef, SubgraphRef) -> string, kind: MapperTypeKind)
    requires forall t :: renameFn(t, ref) == ""
    ensures forall n :: n in TypeRenames(ts, s, ref, renameFn, kind) ==> TypeRenames(ts, s, ref, renameFn, kind)[n] == n
  {
    if ts != [] {
      TypeRenamesUnchanged(ts[..|ts| - 1], s, ref, renameFn, kind);
    }
  }

  /** A rename function that always answers the empty string leaves the schema as it is. */
  lemma RenameTypesFallback(s: Schema, ref: SubgraphRef, renameFn: (TypeDef, SubgraphRef) -> string, kind: MapperTypeKind)
    requires forall t :: renameFn(t, ref) == ""
    ensures RenameTypes(s, ref, renameFn, kind) == s
  {
    var renames := TypeRenames(s.types, s, ref, renameFn, kind);
    TypeRenamesUnchanged(s.types, s, ref, renameFn, kind);
    var r := RenameTypes(s, ref, renameFn, kind);
    forall i | 0 <= i < |s.types| ensures r.types[i] == s.types[i] {
      assert s.types[i].(name := NewTypeName(s.types[i], s, ref, renameFn, kind)) == s.types[i];
      RewireTypeUnchanged(s.types[i], renames);
    }
    assert r.types == s.types;
  }

  /** Which name a type takes: specified scalars and types the mapper does not apply to
      keep theirs; otherwise `renameFn`'s answer, or the old name when it is empty. */
  lemma RenamedTypeName(s: Schema, ref: SubgraphRef, renameFn: (TypeDef, SubgraphRef) -> string,
                        kind: MapperTypeKind, i: nat)
    requires i < |s.types|
    ensures var t := s.types[i];
            var n := RenameTypes(s, ref, renameFn, kind).types[i].name;
            (IsSpecifiedScalar(t) ==> n == t.name) &&
            (!TypeMapperApplies(kind, t, IsRootName(s, t.name)) ==> n == t.name) &&
            (renameFn(t, ref) == "" ==> n == t.name) &&
            (!IsSpecifiedScalar(t) && TypeMapperApplies(kind, t, IsRootName(s, t.name)) && renameFn(t, ref) != "" ==>
               n == renameFn(t, ref))
  {
  }

  predicate UniqueTypeNames(types: seq<TypeDef>) {
    forall i, j :: 0 <= i < j < |types| ==> types[i].name != types[j].name
  }

  lemma {:induction false} TypeRenamesLookup(ts: seq<TypeDef>, s: Schema, ref: SubgraphRef,
                                              renameFn: (TypeDef, SubgraphRef) -> string, kind: MapperTypeKind, k: nat)
    requires UniqueTypeNames(ts) && k < |ts|
    ensures ts[k].name in TypeRenames(ts, s, ref, renameFn, kind)
    ensures TypeRenames(ts, s, ref, renameFn, kind)[ts[k].name] == NewTypeName(ts[k], s, ref, renameFn, kind)
  {
    if k < |ts| - 1 {
      var init := ts[..|ts| - 1];
      assert init[k] == ts[k];
      assert UniqueTypeNames(init);
      TypeRenamesLookup(init, s, ref, renameFn, kind, k);
    }
  }

  /** A field whose type is a type of the schema refers, after the rename, to that type's
      new name. */
  lemma RenameTypesRewiresFieldTypes(s: Schema, ref: SubgraphRef, renameFn: (TypeDef, SubgraphRef) -> string,
                                     kind: MapperTypeKind, i: nat, j: nat, k: nat)
    requires UniqueTypeNames(s.types)
    requires i < |s.types| && j < |s.types[i].fields| && k < |s.types|
    requires s.types[i].fields[j].typeRef == NamedType(s.types[k].name)
    ensures RenameTypes(s, ref, renameFn, kind).types[i].fields[j].typeRef ==
              NamedType(RenameTypes(s, ref, renameFn, kind).types[k].name)
  {
    TypeRenamesLookup(s.types, s, ref, renameFn, kind, k);
  }

  /** A field rename function that always answers the empty string leaves the schema as it is. */
  lemma RenameFieldsFallback(s: Schema, ref: SubgraphRef, renameFn: (FieldDef, string, string, SubgraphRef) -> string,
                             kind: MapperFieldKind)
    requires forall f, fieldName, typeName :: renameFn(f, fieldName, typeName, ref) == ""
    ensures RenameFields(s, ref, renameFn, kind) == s
  {
    var r := RenameFields(s, ref, renameFn, kind);
    forall i | 0 <= i < |s.types| ensures r.types[i] == s.types[i] {
      var t := s.types[i];
      forall j | 0 <= j < |t.fields| ensures r.types[i].fields[j] == t.fields[j] {
        assert t.fields[j].(name := t.fields[j].name) == t.fields[j];
      }
      assert r.types[i].fields == t.fields;
    }
    assert r.types == s.types;
  }

  /** Which name a field takes: `renameFn(field, fieldName, typeName)`, or the old name
      when that is empty or the mapper does not apply to the field's type. */
  lemma RenamedFieldName(s: Schema, ref: SubgraphRef, renameFn: (FieldDef, string, string, SubgraphRef) -> string,
                         kind: MapperFieldKind, i: nat, j: nat)
    requires i < |s.types| && j < |s.types[i].fields|
    ensures var t := s.types[i];
            var f := t.fields[j];
            var n := RenameFields(s, ref, renameFn, kind).types[i].fields[j].name;
            (!FieldMapperApplies(kind, t, IsRootName(s, t.name)) || renameFn(f, f.name, t.name, ref) == "" ==> n == f.name) &&
            (FieldMapperApplies(kind, t, IsRootName(s, t.name)) && renameFn(f, f.name, t.name, ref) != "" ==>
               n == renameFn(f, f.name, t.name, ref))
  {
  }

  /** Transforms apply in list order: none leaves the schema as it is, one is applied
      once, and a list is its first part followed by the rest. */
  lemma ApplyTransformsInOrder(s: Schema, t: (Schema, SubgraphRef) -> Schema,
                               first: seq<(Schema, SubgraphRef) -> Schema>,
                               second: seq<(Schema, SubgraphRef) -> Schema>, ref: SubgraphRef)
    ensures ApplyTransforms(s, [], ref) == s
    ensures ApplyTransforms(s, [t], ref) == t(s, ref)
    ensures ApplyTransforms(s, first + second, ref) == ApplyTransforms(ApplyTransforms(s, first, ref), second, ref)
  {
    assert [t][..0] == [];
    ApplyTransformsAppend(s, first, second, ref);
  }
}

=== FILE: extract_subgraph.dfy ===
/** Recovering one subgraph's schema from the supergraph: a rewrite of the printed
    supergraph that removes what belongs to other subgraphs and gives the surviving
    definitions back the names they had in their own subgraph. */
module SubgraphExtraction {
  import opened Outcomes
  import opened Syntax

  /** A `subgraph` argument that is a string literal naming a subgraph other than `subgraph`. */
  predicate NamesOtherSubgraph(arg: Option<ValueNode>, subgraph: string) {
    arg.Some? && arg.value.StringValue? && arg.value.value != subgraph
  }

  /** The `Directive` visitor keeps a directive unless its (first) `subgraph` argument is a
      string naming another subgraph. */
  predicate KeepsDirective(d: Directive, subgraph: string) {
    !NamesOtherSubgraph(FindArgument(d.arguments, "subgraph"), subgraph)
  }

  /** The directives of one node after the `Directive` visitor ran on each of them. */
  function FilterDirectives(ds: seq<Directive>, subgraph: string): seq<Directive> {
    if ds == [] then []
    else (if KeepsDirective(ds[0], subgraph) then [ds[0]] else []) + FilterDirectives(ds[1..], subgraph)
  }

  /** Exactly the directives the visitor keeps remain, each as it was. */
  lemma {:induction false} FilterDirectivesMembers(ds: seq<Directive>, subgraph: string)
    ensures forall d :: d in FilterDirectives(ds, subgraph) <==> d in ds && KeepsDirective(d, subgraph)
  {
    if ds != [] {
      FilterDirectivesMembers(ds[1..], subgraph);
      assert ds == [ds[0]] + ds[1..];
    }
  }

  /** The six kinds whose `enter` hook is `filterNodeBySubgraph`; interfaces, unions,
      input values (arguments and input fields), directive and schema definitions are
      not among them. */
  predicate FilteredKind(k: NodeKind) {
    k.ObjectTypeDefinition? || k.FieldDefinition? || k.EnumTypeDefinition? ||
    k.EnumValueDefinition? || k.InputObjectTypeDefinition? || k.ScalarTypeDefinition?
  }

  /** The node's first `source` directive tags it for another subgraph. */
  predicate TaggedForOtherSubgraph(n: Node, subgraph: string) {
    match FindDirective(n.directives, "source")
    case None => false
    case Some(source) => NamesOtherSubgraph(FindArgument(source.arguments, "subgraph"), subgraph)
  }

  /** The name a kept node takes: the string `name` argument of its first `source`
      directive when there is one, its own name otherwise. */
  function SourceName(n: Node): string {
    match FindDirective(n.directives, "source")
    case None => n.name
    case Some(source) =>
      match FindArgument(source.arguments, "name")
      case Some(StringValue(original)) => original
      case _ => n.name
  }

  /** `filterNodeBySubgraph`: None stands for the `null` that removes the node. */
  function FilterNodeBySubgraph(n: Node, subgraph: string): Option<Node> {
    if TaggedForOtherSubgraph(n, subgraph) then None else Some(n.(name := SourceName(n)))
  }

  /** One node after the visit: the `enter` hook of its kind decides whether it stays and
      under which name; then its directives and nested definitions are visited. */
  function ExtractNode(n: Node, subgraph: string): (r: Option<Node>)
    decreases n, 0
    ensures r.None? <==> FilteredKind(n.kind) && TaggedForOtherSubgraph(n, subgraph)
    ensures r.Some? ==> r.value.kind == n.kind && r.value.typeRef == n.typeRef
    ensures r.Some? ==> r.value.name == (if FilteredKind(n.kind) then SourceName(n) else n.name)
    ensures r.Some? ==> r.value.directives == FilterDirectives(n.directives, subgraph)
    ensures r.Some? ==> r.value.children == ExtractNodes(n.children, subgraph)
  {
    var entered := if FilteredKind(n.kind) then FilterNodeBySubgraph(n, subgraph) else Some(n);
    match entered
    case None => None
    case Some(m) =>
      Some(Node(n.kind, m.name, FilterDirectives(n.directives, subgraph), n.typeRef,
                ExtractNodes(n.children, subgraph)))
  }

  /** A list of definitions after the visit: removed nodes leave the list, the others are
      rewritten in place. */
  function ExtractNodes(ns: seq<Node>, subgraph: string): (r: seq<Node>)
    decreases ns
    ensures |r| <= |ns|
  {
    if ns == [] then []
    else Kept(ns[0], subgraph) + ExtractNodes(ns[1..], subgraph)
  }

  /** What one definition leaves in its list: nothing, or its rewrite. */
  function Kept(n: Node, subgraph: string): (r: seq<Node>)
    decreases n, 1
    ensures |r| <= 1
  {
    match ExtractNode(n, subgraph) case None => [] case Some(m) => [m]
  }

  /** The definitions left are exactly the rewrites of those the visit keeps. */
  lemma {:induction false} ExtractNodesMembers(ns: seq<Node>, subgraph: string, m: Node)
    ensures m in ExtractNodes(ns, subgraph) <==> exists i :: 0 <= i < |ns| && ExtractNode(ns[i], subgraph) == Some(m)
  {
    if ns != [] {
      ExtractNodesMembers(ns[1..], subgraph, m);
      if exists i :: 0 <= i < |ns| && ExtractNode(ns[i], subgraph) == Some(m) {
        var i :| 0 <= i < |ns| && ExtractNode(ns[i], subgraph) == Some(m);
        if i > 0 {
          assert ns[1..][i - 1] == ns[i];
        }
      } else {
        forall i | 0 <= i < |ns[1..]| ensures ExtractNode(ns[1..][i], subgraph) != Some(m) {
          assert ns[1..][i] == ns[i + 1];
        }
      }
    }
  }

  /** The visit keeps the survivors in their original order: the definitions of `a + b`
      come out as those of `a`, then those of `b`. */
  lemma {:induction false} ExtractNodesAppend(a: seq<Node>, b: seq<Node>, subgraph: string)
    ensures ExtractNodes(a + b, subgraph) == ExtractNodes(a, subgraph) + ExtractNodes(b, subgraph)
  {
    if a == [] {
      assert a + b == b;
      assert ExtractNodes(a, subgraph) + ExtractNodes(b, subgraph) == ExtractNodes(b, subgraph);
    } else {
      ExtractNodesAppend(a[1..], b, subgraph);
      var ab := a + b;
      assert ab[0] == a[0] && ab[1..] == a[1..] + b;
      var head := Kept(a[0], subgraph);
      AppendAssociates(head, ExtractNodes(a[1..], subgraph), ExtractNodes(b, subgraph));
    }
  }

  lemma AppendAssociates<T>(x: seq<T>, y: seq<T>, z: seq<T>)
    ensures x + (y + z) == (x + y) + z
  {
  }

  /** `extractSubgraphFromSupergraph`, up to building a schema from the result. */
  function ExtractSubgraph(subgraph: string, supergraphDefinitions: seq<Node>): seq<Node> {
    ExtractNodes(supergraphDefinitions, subgraph)
  }

  // ----- properties of the whole rewritten tree -----

  /** No directive anywhere in the tree names another subgraph. */
  predicate NoForeignDirectives(n: Node, subgraph: string)
    decreases n
  {
    (forall d :: d in n.directives ==> KeepsDirective(d, subgraph)) &&
    forall c :: c in n.children ==> NoForeignDirectives(c, subgraph)
  }

  lemma {:induction false} ExtractNodeHasNoForeignDirectives(n: Node, subgraph: string)
    decreases n
    ensures ExtractNode(n, subgraph).Some? ==> NoForeignDirectives(ExtractNode(n, subgraph).value, subgraph)
  {
    if ExtractNode(n, subgraph).Some? {
      ExtractNodesHaveNoForeignDirectives(n.children, subgraph);
      FilterDirectivesMembers(n.directives, subgraph);
    }
  }

  lemma {:induction false} ExtractNodesHaveNoForeignDirectives(ns: seq<Node>, subgraph: string)
    decreases ns
    ensures forall m :: m in ExtractNodes(ns, subgraph) ==> NoForeignDirectives(m, subgraph)
  {
    if ns != [] {
      ExtractNodeHasNoForeignDirectives(ns[0], subgraph);
      ExtractNodesHaveNoForeignDirectives(ns[1..], subgraph);
    }
  }

  /** Nothing in an extracted supergraph carries a directive naming another subgraph, and
      therefore no definition tagged for another subgraph survives at any depth. */
  lemma ExtractSubgraphHasNoForeignDirectives(subgraph: string, definitions: seq<Node>)
    ensures forall m :: m in ExtractSubgraph(subgraph, definitions) ==> NoForeignDirectives(m, subgraph)
  {
    ExtractNodesHaveNoForeignDirectives(definitions, subgraph);
  }

  lemma {:induction false} FilterDirectivesIdempotent(ds: seq<Directive>, subgraph: string)
    ensures FilterDirectives(FilterDirectives(ds, subgraph), subgraph) == FilterDirectives(ds, subgraph)
  {
    if ds != [] {
      FilterDirectivesIdempotent(ds[1..], subgraph);
      var rest := FilterDirectives(ds[1..], subgraph);
      var f := FilterDirectives(ds, subgraph);
      if KeepsDirective(ds[0], subgraph) {
        assert f == [ds[0]] + rest;
        assert f[0] == ds[0] && f[1..] == rest;
      } else {
        assert f == rest;
      }
    }
  }

  /** Filtering keeps the first directive of a name in first place when it survives, and
      cannot make a directive name appear. */
  lemma {:induction false} FindDirectiveAfterFilter(ds: seq<Directive>, name: string, subgraph: string)
    ensures FindDirective(ds, name).None? ==> FindDirective(FilterDirectives(ds, subgraph), name).None?
    ensures FindDirective(ds, name).Some? && KeepsDirective(FindDirective(ds, name).value, subgraph) ==>
              FindDirective(FilterDirectives(ds, subgraph), name) == FindDirective(ds, name)
  {
    if ds != [] {
      var rest := FilterDirectives(ds[1..], subgraph);
      var f := FilterDirectives(ds, subgraph);
      FindDirectiveAfterFilter(ds[1..], name, subgraph);
      if KeepsDirective(ds[0], subgraph) {
        assert f == [ds[0]] + rest;
        assert f[0] == ds[0] && f[1..] == rest;
      } else {
        assert f == rest;
      }
    }
  }

  lemma {:induction false} ExtractNodeIdempotent(n: Node, subgraph: string)
    decreases n
    ensures ExtractNode(n, subgraph).Some? ==>
              ExtractNode(ExtractNode(n, subgraph).value, subgraph) == ExtractNode(n, subgraph)
  {
    if ExtractNode(n, subgraph).Some? {
      var m := ExtractNode(n, subgraph).value;
      FilterDirectivesIdempotent(n.directives, subgraph);
      ExtractNodesIdempotent(n.children, subgraph);
      var source := FindDirective(n.directives, "source");
      if source.Some? {
        if FilteredKind(n.kind) {
          assert !TaggedForOtherSubgraph(n, subgraph);
        }
        FindDirectiveAfterFilter(n.directives, "source", subgraph);
      } else {
        FindDirectiveAfterFilter(n.directives, "source", subgraph);
      }
    }
  }

  lemma {:induction false} ExtractNodesIdempotent(ns: seq<Node>, subgraph: string)
    decreases ns
    ensures ExtractNodes(ExtractNodes(ns, subgraph), subgraph) == ExtractNodes(ns, subgraph)
  {
    if ns != [] {
      ExtractNodeIdempotent(ns[0], subgraph);
      ExtractNodesIdempotent(ns[1..], subgraph);
      var rest := ExtractNodes(ns[1..], subgraph);
      var r := ExtractNodes(ns, subgraph);
      match ExtractNode(ns[0], subgraph)
      case None =>
        assert Kept(ns[0], subgraph) == [];
        assert r == rest;
      case Some(m) =>
        assert Kept(ns[0], subgraph) == [m];
        assert r == [m] + rest;
        assert r[0] == m && r[1..] == rest;
        assert Kept(m, subgraph) == [m];
        assert ExtractNodes(r, subgraph) == [m] + ExtractNodes(rest, subgraph);
    }
  }

  /** Extracting a subgraph from its own extraction changes nothing. */
  lemma ExtractSubgraphIdempotent(subgraph: string, definitions: seq<Node>)
    ensures ExtractSubgraph(subgraph, ExtractSubgraph(subgraph, definitions)) == ExtractSubgraph(subgraph, definitions)
  {
    ExtractNodesIdempotent(definitions, subgraph);
  }
}

=== FILE: operations.dfy ===
/** The front end of operation planning and the packaging of an execution result: choosing
    the operation of a document, collecting its fragments and default variables, building
    the synthetic root field handed to the planner, merging variables, and cleaning the
    planner's internal fields out of the response. The planner itself, selection
    flattening and the parallel plan executor are parameters. */
module Operations {
  import opened Outcomes
  import opened Values
  import opened Syntax

  datatype PlanError =
    | AmbiguousOperation
    | OperationNotFound(operationName: Option<string>)
    | NoRootType(operation: OperationType)

  /** The message each planning error is thrown with. */
  function Message(e: PlanError): string {
    match e
    case AmbiguousOperation => "Must provide operation name if query contains multiple operations"
    case OperationNotFound(name) => "No operation found with name " + (if name.Some? then name.value else "undefined")
    case NoRootType(t) => "No root type found for operation type " + Keyword(t)
  }

  /** `operationName` is truthy: given and not empty. */
  predicate Named(operationName: Option<string>) {
    operationName.Some? && operationName.value != ""
  }

  // ----- choosing the operation -----

  /** The operation chosen after scanning `defs` in order: Ok(None) while none is chosen,
      an error once a second operation turns up without a name to choose by. */
  function SelectFrom(defs: seq<Definition>, operationName: Option<string>): Result<Option<OperationDefinition>, PlanError> {
    if defs == [] then Ok(None)
    else
      match SelectFrom(defs[..|defs| - 1], operationName)
      case Err(e) => Err(e)
      case Ok(current) =>
        var d := defs[|defs| - 1];
        if !d.Operation? then Ok(current)
        else if !Named(operationName) && current.Some? then Err(AmbiguousOperation)
        else if !Named(operationName) || d.op.name == operationName then Ok(Some(d.op))
        else Ok(current)
  }

  function SelectOperation(defs: seq<Definition>, operationName: Option<string>): Result<OperationDefinition, PlanError> {
    match SelectFrom(defs, operationName)
    case Err(e) => Err(e)
    case Ok(None) => Err(OperationNotFound(operationName))
    case Ok(Some(op)) => Ok(op)
  }

  /** The operation definitions of a document, in order. */
  function OperationsOf(defs: seq<Definition>): (ops: seq<OperationDefinition>)
    ensures |ops| <= |defs|
  {
    if defs == [] then []
    else OperationsOf(defs[..|defs| - 1]) + (if defs[|defs| - 1].Operation? then [defs[|defs| - 1].op] else [])
  }

  /** The last operation called `name`. */
  function LastNamed(ops: seq<OperationDefinition>, name: string): Option<OperationDefinition> {
    if ops == [] then None
    else if ops[|ops| - 1].name == Some(name) then Some(ops[|ops| - 1])
    else LastNamed(ops[..|ops| - 1], name)
  }

  lemma {:induction false} LastNamedIsLast(ops: seq<OperationDefinition>, name: string)
    ensures LastNamed(ops, name).None? <==> forall i :: 0 <= i < |ops| ==> ops[i].name != Some(name)
    ensures LastNamed(ops, name).Some? ==>
              exists i :: 0 <= i < |ops| && ops[i] == LastNamed(ops, name).value && ops[i].name == Some(name) &&
                          forall j :: i < j < |ops| ==> ops[j].name != Some(name)
  {
    if ops != [] {
      var init := ops[..|ops| - 1];
      LastNamedIsLast(init, name);
      if ops[|ops| - 1].name != Some(name) {
        if LastNamed(init, name).Some? {
          var i :| 0 <= i < |init| && init[i] == LastNamed(init, name).value && init[i].name == Some(name) &&
                   forall j :: i < j < |init| ==> init[j].name != Some(name);
          assert ops[i] == init[i];
        }
        assert forall i :: 0 <= i < |init| ==> init[i] == ops[i];
      }
    }
  }

  /** Without an operation name: none is an error, one is chosen, more are ambiguous. */
  lemma {:induction false} SelectWithoutName(defs: seq<Definition>, operationName: Option<string>)
    requires !Named(operationName)
    ensures SelectFrom(defs, operationName) ==
              if |OperationsOf(defs)| == 0 then Ok(None)
              else if |OperationsOf(defs)| == 1 then Ok(Some(OperationsOf(defs)[0]))
              else Err(AmbiguousOperation)
  {
    if defs != [] {
      var init := defs[..|defs| - 1];
      SelectWithoutName(init, operationName);
      var d := defs[|defs| - 1];
      if d.Operation? {
        assert OperationsOf(defs) == OperationsOf(init) + [d.op];
        if |OperationsOf(init)| == 0 {
          assert OperationsOf(defs) == [d.op];
        }
      } else {
        assert OperationsOf(defs) == OperationsOf(init);
      }
    }
  }

  /** With an operation name: the last operation of that name, or nothing. */
  lemma {:induction false} SelectWithName(defs: seq<Definition>, operationName: Option<string>)
    requires Named(operationName)
    ensures SelectFrom(defs, operationName) == Ok(LastNamed(OperationsOf(defs), operationName.value))
  {
    if defs != [] {
      var init := defs[..|defs| - 1];
      SelectWithName(init, operationName);
      if defs[|defs| - 1].Operation? {
        var ops := OperationsOf(defs);
        assert ops == OperationsOf(init) + [defs[|defs| - 1].op];
        assert ops[..|ops| - 1] == OperationsOf(init) && ops[|ops| - 1] == defs[|defs| - 1].op;
        assert operationName == Some(operationName.value);
      } else {
        assert OperationsOf(defs) == OperationsOf(init);
      }
    }
  }

  /** The chosen operation, as an error or a definition, for every document and name. */
  lemma SelectOperationOutcome(defs: seq<Definition>, operationName: Option<string>)
    ensures !Named(operationName) && |OperationsOf(defs)| == 0 ==>
              SelectOperation(defs, operationName) == Err(OperationNotFound(operationName))
    ensures !Named(operationName) && |OperationsOf(defs)| == 1 ==>
              SelectOperation(defs, operationName) == Ok(OperationsOf(defs)[0])
    ensures !Named(operationName) && |OperationsOf(defs)| > 1 ==>
              SelectOperation(defs, operationName) == Err(AmbiguousOperation)
    ensures Named(operationName) ==>
              SelectOperation(defs, operationName) ==
                match LastNamed(OperationsOf(defs), operationName.value)
                case None => Err(OperationNotFound(operationName))
                case Some(op) => Ok(op)
  {
    if Named(operationName) {
      SelectWithName(defs, operationName);
    } else {
      SelectWithoutName(defs, operationName);
    }
  }

  /** Once scanning fails, the rest of the document does not matter. */
  lemma {:induction false} SelectFromErrorPersists(defs: seq<Definition>, k: nat, operationName: Option<string>)
    requires k <= |defs| && SelectFrom(defs[..k], operationName).Err?
    ensures SelectFrom(defs, operationName) == SelectFrom(defs[..k], operationName)
    decreases |defs| - k
  {
    if k < |defs| {
      assert defs[..k + 1][..k] == defs[..k];
      SelectFromErrorPersists(defs, k + 1, operationName);
    } else {
      assert defs[..k] == defs;
    }
  }

  // ----- fragments -----

  /** The fragment dictionary: every fragment under its name, a later one replacing an
      earlier one of the same name. */
  function FragmentMap(defs: seq<Definition>): map<string, FragmentDefinition> {
    if defs == [] then map[]
    else
      var m := FragmentMap(defs[..|defs| - 1]);
      var d := defs[|defs| - 1];
      if d.Fragment? then m[d.fragment.name := d.fragment] else m
  }

  lemma {:induction false} FragmentMapHoldsLastFragment(defs: seq<Definition>, name: string)
    ensures name in FragmentMap(defs) <==>
              exists i :: 0 <= i < |defs| && defs[i].Fragment? && defs[i].fragment.name == name
    ensures name in FragmentMap(defs) ==>
              exists i :: 0 <= i < |defs| && defs[i] == Fragment(FragmentMap(defs)[name]) &&
                          forall j :: i < j < |defs| ==> !(defs[j].Fragment? && defs[j].fragment.name == name)
  {
    if defs != [] {
      var init := defs[..|defs| - 1];
      FragmentMapHoldsLastFragment(init, name);
      assert forall i :: 0 <= i < |init| ==> init[i] == defs[i];
      if name in FragmentMap(init) && !(defs[|defs| - 1].Fragment? && defs[|defs| - 1].fragment.name == name) {
        var i :| 0 <= i < |init| && init[i] == Fragment(FragmentMap(init)[name]) &&
                 forall j :: i < j < |init| ==> !(init[j].Fragment? && init[j].fragment.name == name);
        assert defs[i] == init[i];
      }
    }
  }

  // ----- default variables -----

  /** `valueFromASTUntyped`: a literal as a JavaScript value. Number literals keep their
      text; a variable reads the values gathered so far (a missing one reads as null). */
  function ValueFromAst(v: ValueNode, variables: seq<(string, Json)>): Json
    decreases v
  {
    match v
    case VariableValue(name) => Get(variables, name).GetOr(JNull)
    case IntValue(repr) => JNumber(repr)
    case FloatValue(repr) => JNumber(repr)
    case StringValue(s) => JString(s)
    case BooleanValue(b) => JBool(b)
    case NullValue => JNull
    case EnumValue(name) => JString(name)
    case ListValue(values) => JArray(seq(|values|, i requires 0 <= i < |values| => ValueFromAst(values[i], variables)))
    case ObjectValue(fields) => JObject(ObjectFromFields(fields, variables))
  }

  /** Object fields collected into a record; a repeated field name keeps its first place
      and takes the later value. */
  function ObjectFromFields(fields: seq<(string, ValueNode)>, variables: seq<(string, Json)>): seq<(string, Json)>
    decreases fields
  {
    if fields == [] then []
    else
      var (name, value) := fields[|fields| - 1];
      assert fields[|fields| - 1] in fields && value < fields[|fields| - 1];
      Put(ObjectFromFields(fields[..|fields| - 1], variables), name, ValueFromAst(value, variables))
  }

  /** The default variables after the definitions in `vds` are visited in order. */
  function DefaultVariables(vds: seq<VariableDefinition>): seq<(string, Json)> {
    if vds == [] then []
    else
      var defaults := DefaultVariables(vds[..|vds| - 1]);
      var vd := vds[|vds| - 1];
      if vd.defaultValue.Some? then Put(defaults, vd.name, ValueFromAst(vd.defaultValue.value, defaults))
      else defaults
  }

  /** The default variables are exactly the variables defined with a default value. */
  lemma {:induction false} DefaultVariablesKeys(vds: seq<VariableDefinition>, name: string)
    ensures name in Keys(DefaultVariables(vds)) <==>
              exists i :: 0 <= i < |vds| && vds[i].name == name && vds[i].defaultValue.Some?
  {
    if vds != [] {
      var init := vds[..|vds| - 1];
      DefaultVariablesKeys(init, name);
      var defaults := DefaultVariables(init);
      var vd := vds[|vds| - 1];
      if vd.defaultValue.Some? {
        var r := Put(defaults, vd.name, ValueFromAst(vd.defaultValue.value, defaults));
        assert name in Keys(r) <==> name in Keys(defaults) || name == vd.name;
      }
      if exists i :: 0 <= i < |init| && init[i].name == name && init[i].defaultValue.Some? {
        var i :| 0 <= i < |init| && init[i].name == name && init[i].defaultValue.Some?;
        assert vds[i] == init[i];
      }
      if exists i :: 0 <= i < |vds| && vds[i].name == name && vds[i].defaultValue.Some? {
        var i :| 0 <= i < |vds| && vds[i].name == name && vds[i].defaultValue.Some?;
        if i < |init| { assert init[i] == vds[i]; }
      }
    }
  }

  lemma {:induction false} DefaultVariablesUnique(vds: seq<VariableDefinition>)
    ensures UniqueKeys(DefaultVariables(vds))
  {
    if vds != [] {
      var init := vds[..|vds| - 1];
      DefaultVariablesUnique(init);
      var vd := vds[|vds| - 1];
      if vd.defaultValue.Some? {
        PutKeepsKeysUnique(DefaultVariables(init), vd.name, ValueFromAst(vd.defaultValue.value, DefaultVariables(init)));
      }
    }
  }

  // ----- the synthetic root field and the plan -----

  /** One argument per variable definition, in order, bound to the variable of the same name. */
  function FakeArguments(vds: seq<VariableDefinition>): (args: seq<Argument>)
    ensures |args| == |vds|
    ensures forall i :: 0 <= i < |vds| ==> args[i] == Argument(vds[i].name, VariableValue(vds[i].name))
  {
    seq(|vds|, i requires 0 <= i < |vds| => Argument(vds[i].name, VariableValue(vds[i].name)))
  }

  /** Selections flattened against the fragment dictionary (`flattenSelections`). */
  type Flatten = (seq<Selection>, map<string, FragmentDefinition>) -> seq<Selection>

  /** The `__fake` field whose arguments are the operation's variables and whose
      selections are the operation's, flattened. */
  function FakeRootField(op: OperationDefinition, fragments: map<string, FragmentDefinition>, flatten: Flatten): (f: Selection)
    ensures f.Field? && f.name == "__fake" && f.alias.None?
    ensures f.arguments == FakeArguments(op.variableDefinitions)
  {
    Field(None, "__fake", FakeArguments(op.variableDefinitions), flatten(op.selections, fragments))
  }

  /** A node of the plan, as far as this model sees it: the subgraph it runs on and an
      identity given by the planner. */
  datatype PlanNode = PlanNode(subgraph: string, id: nat)

  datatype PlannerOutput = PlannerOutput(resolverOperationNodes: seq<PlanNode>,
                                         resolverDependencyFieldMap: seq<(string, seq<PlanNode>)>)

  /** The query planner (`visitFieldNodeForTypeResolvers` from the root): the fake field,
      the root type name and the supergraph. */
  type Planner = (Selection, string, Supergraph) -> PlannerOutput

  datatype OperationPlan = OperationPlan(resolverOperationNodes: seq<PlanNode>,
                                         resolverDependencyFieldMap: seq<(string, seq<PlanNode>)>,
                                         defaultVariables: seq<(string, Json)>)

  /** What `planOperation` returns or throws. */
  function Plan(supergraph: Supergraph, document: Document, operationName: Option<string>,
                flatten: Flatten, planner: Planner): Result<OperationPlan, PlanError>
  {
    match SelectOperation(document.definitions, operationName)
    case Err(e) => Err(e)
    case Ok(op) =>
      if op.operation !in supergraph.rootTypes then Err(NoRootType(op.operation))
      else
        var fake := FakeRootField(op, FragmentMap(document.definitions), flatten);
        var out := planner(fake, supergraph.rootTypes[op.operation], supergraph);
        Ok(OperationPlan(out.resolverOperationNodes, out.resolverDependencyFieldMap, DefaultVariables(op.variableDefinitions)))
  }

  /** A plan exists exactly when an operation is chosen and the supergraph has a root type
      for its kind; it carries that operation's default variables. */
  lemma PlanSucceeds(supergraph: Supergraph, document: Document, operationName: Option<string>,
                     flatten: Flatten, planner: Planner)
    ensures Plan(supergraph, document, operationName, flatten, planner).Ok? <==>
              SelectOperation(document.definitions, operationName).Ok? &&
              SelectOperation(document.definitions, operationName).value.operation in supergraph.rootTypes
    ensures SelectOperation(document.definitions, operationName).Ok? &&
            SelectOperation(document.definitions, operationName).value.operation !in supergraph.rootTypes ==>
              Plan(supergraph, document, operationName, flatten, planner) ==
                Err(NoRootType(SelectOperation(document.definitions, operationName).value.operation))
    ensures Plan(supergraph, document, operationName, flatten, planner).Ok? ==>
              Plan(supergraph, document, operationName, flatten, planner).value.defaultVariables ==
                DefaultVariables(SelectOperation(document.definitions, operationName).value.variableDefinitions)
  {
  }

  /** `planOperation`. */
  method PlanOperation(supergraph: Supergraph, document: Document, operationName: Option<string>,
                       flatten: Flatten, planner: Planner) returns (r: Result<OperationPlan, PlanError>)
    ensures r == Plan(supergraph, document, operationName, flatten, planner)
  {
    var defs := document.definitions;
    var operationAst: Option<OperationDefinition> := None;
    var fragments: map<string, FragmentDefinition> := map[];
    for i := 0 to |defs|
      invariant SelectFrom(defs[..i], operationName) == Ok(operationAst)
      invariant fragments == FragmentMap(defs[..i])
    {
      assert defs[..i + 1][..i] == defs[..i];
      var definition := defs[i];
      if definition.Operation? {
        if !Named(operationName) && operationAst.Some? {
          SelectFromErrorPersists(defs, i + 1, operationName);
          return Err(AmbiguousOperation);
        }
        if !Named(operationName) || definition.op.name == operationName {
          operationAst := Some(definition.op);
        }
      } else if definition.Fragment? {
        fragments := fragments[definition.fragment.name := definition.fragment];
      }
    }
    assert defs[..|defs|] == defs;

    if operationAst.None? {
      return Err(OperationNotFound(operationName));
    }
    var op := operationAst.value;

    var defaultVariables: seq<(string, Json)> := [];
    for j := 0 to |op.variableDefinitions|
      invariant defaultVariables == DefaultVariables(op.variableDefinitions[..j])
    {
      assert op.variableDefinitions[..j + 1][..j] == op.variableDefinitions[..j];
      var variableDefinition := op.variableDefinitions[j];
      if variableDefinition.defaultValue.Some? {
        defaultVariables := Put(defaultVariables, variableDefinition.name,
                                ValueFromAst(variableDefinition.defaultValue.value, defaultVariables));
      }
    }
    assert op.variableDefinitions[..|op.variableDefinitions|] == op.variableDefinitions;

    var flattenedFakeFieldNode := Field(None, "__fake", FakeArguments(op.variableDefinitions),
                                        flatten(op.selections, fragments));
    if op.operation !in supergraph.rootTypes {
      return Err(NoRootType(op.operation));
    }
    var rootType := supergraph.rootTypes[op.operation];
    var planForFakeFieldNode := planner(flattenedFakeFieldNode, rootType, supergraph);
    r := Ok(OperationPlan(planForFakeFieldNode.resolverOperationNodes,
                          planForFakeFieldNode.resolverDependencyFieldMap, defaultVariables));
  }

  /** Turning planner nodes into executable nodes (`createExecutableResolverOperationNodesWithDependencyMap`). */
  type MakeExecutable = (seq<PlanNode>, seq<(string, seq<PlanNode>)>) -> PlannerOutput

  /** `createExecutablePlanForOperation`: a plan whose nodes are made executable, with the
      planned default variables. */
  function CreateExecutablePlan(supergraph: Supergraph, document: Document, operationName: Option<string>,
                                flatten: Flatten, planner: Planner, makeExecutable: MakeExecutable)
    : (r: Result<OperationPlan, PlanError>)
    ensures r.Err? <==> Plan(supergraph, document, operationName, flatten, planner).Err?
    ensures r.Err? ==> r.error == Plan(supergraph, document, operationName, flatten, planner).error
    ensures r.Ok? ==> r.value.defaultVariables == Plan(supergraph, document, operationName, flatten, planner).value.defaultVariables
  {
    match Plan(supergraph, document, operationName, flatten, planner)
    case Err(e) => Err(e)
    case Ok(plan) =>
      var executable := makeExecutable(plan.resolverOperationNodes, plan.resolverDependencyFieldMap);
      Ok(OperationPlan(executable.resolverOperationNodes, executable.resolverDependencyFieldMap, plan.defaultVariables))
  }

  // ----- variables -----

  /** `new Map(entries)`: a repeated key keeps its first place and takes the later value. */
  function MapFromEntries(entries: seq<(string, Json)>): seq<(string, Json)> {
    if entries == [] then []
    else Put(MapFromEntries(entries[..|entries| - 1]), entries[|entries| - 1].0, entries[|entries| - 1].1)
  }

  /** The value of the last entry with the given key. */
  function LastValue(entries: seq<(string, Json)>, key: string): Option<Json> {
    if entries == [] then None
    else if entries[|entries| - 1].0 == key then Some(entries[|entries| - 1].1)
    else LastValue(entries[..|entries| - 1], key)
  }

  lemma {:induction false} MapFromEntriesLastWins(entries: seq<(string, Json)>, key: string)
    ensures Get(MapFromEntries(entries), key) == LastValue(entries, key)
  {
    if entries != [] {
      MapFromEntriesLastWins(entries[..|entries| - 1], key);
      GetPut(MapFromEntries(entries[..|entries| - 1]), entries[|entries| - 1].0, entries[|entries| - 1].1, key);
    }
  }

  lemma {:induction false} LastValueOfAppend(a: seq<(string, Json)>, b: seq<(string, Json)>, key: string)
    ensures LastValue(a + b, key) == if LastValue(b, key).Some? then LastValue(b, key) else LastValue(a, key)
  {
    if b == [] {
      assert a + b == a;
    } else {
      assert (a + b)[..|a + b| - 1] == a + b[..|b| - 1];
      LastValueOfAppend(a, b[..|b| - 1], key);
    }
  }

  /** In an object with unique keys, the last entry of a key is its only one. */
  lemma {:induction false} LastValueIsGet(entries: seq<(string, Json)>, key: string)
    requires UniqueKeys(entries)
    ensures LastValue(entries, key) == Get(entries, key)
  {
    if entries != [] {
      var init := entries[..|entries| - 1];
      assert UniqueKeys(init);
      LastValueIsGet(init, key);
      if entries[|entries| - 1].0 == key {
        forall i | 0 <= i < |init| ensures Keys(init)[i] != key {
          assert Keys(init)[i] == entries[i].0;
        }
        assert entries == init + [(key, entries[|entries| - 1].1)];
        GetOfAppend(init, key, entries[|entries| - 1].1, key);
      } else {
        assert entries == init + [entries[|entries| - 1]];
        GetOfAppend(init, entries[|entries| - 1].0, entries[|entries| - 1].1, key);
      }
    }
  }

  lemma {:induction false} GetOfAppend(entries: seq<(string, Json)>, k: string, v: Json, key: string)
    requires k !in Keys(entries) || k != key
    ensures Get(entries + [(k, v)], key) == if key in Keys(entries) then Get(entries, key) else if k == key then Some(v) else None
  {
    if entries != [] {
      assert (entries + [(k, v)])[1..] == entries[1..] + [(k, v)];
      if entries[0].0 != key {
        GetOfAppend(entries[1..], k, v, key);
      }
    }
  }

  /** The variables the plan runs with: the defaults, then the caller's variables. */
  function InputVariables(defaultVariables: seq<(string, Json)>, variables: seq<(string, Json)>): seq<(string, Json)> {
    MapFromEntries(defaultVariables + variables)
  }

  /** A caller's value wins over a default of the same name; a default without a caller's
      value survives; nothing else appears. */
  lemma InputVariablesCallerWins(defaultVariables: seq<(string, Json)>, variables: seq<(string, Json)>, key: string)
    requires UniqueKeys(defaultVariables) && UniqueKeys(variables)
    ensures Get(InputVariables(defaultVariables, variables), key) ==
              if Get(variables, key).Some? then Get(variables, key) else Get(defaultVariables, key)
  {
    MapFromEntriesLastWins(defaultVariables + variables, key);
    LastValueOfAppend(defaultVariables, variables, key);
    LastValueIsGet(defaultVariables, key);
    LastValueIsGet(variables, key);
  }

  // ----- cleaning the response -----

  predicate IsInternalKey(key: string) {
    StartsWith(key, "__variable")
  }

  /** No object key starting with `__variable` at any depth. */
  predicate NoInternalKeys(v: Json)
    decreases v
  {
    match v
    case JArray(items) => forall i :: 0 <= i < |items| ==> NoInternalKeys(items[i])
    case JObject(entries) => forall i :: 0 <= i < |entries| ==> !IsInternalKey(entries[i].0) && NoInternalKeys(entries[i].1)
    case _ => true
  }

  /** `removeInternalFieldsFromResponse`. */
  function RemoveInternalFields(v: Json): (r: Json)
    decreases v
    ensures v.JArray? <==> r.JArray?
    ensures v.JObject? <==> r.JObject?
    ensures v.JArray? ==> |r.items| == |v.items|
    ensures !v.JArray? && !v.JObject? ==> r == v
  {
    match v
    case JArray(items) => JArray(seq(|items|, i requires 0 <= i < |items| => RemoveInternalFields(items[i])))
    case JObject(entries) => JObject(RemoveInternalEntries(entries))
    case _ => v
  }

  function RemoveInternalEntries(entries: seq<(string, Json)>): seq<(string, Json)>
    decreases entries
  {
    if entries == [] then []
    else
      var (key, value) := entries[0];
      assert entries[0] in entries && value < entries[0];
      (if IsInternalKey(key) then [] else [(key, RemoveInternalFields(value))]) + RemoveInternalEntries(entries[1..])
  }

  /** Arrays are cleaned element by element: element `i` of the answer is element `i` of
      the response, cleaned. */
  lemma RemoveInternalItems(v: Json)
    requires v.JArray?
    ensures RemoveInternalFields(v).JArray? && |RemoveInternalFields(v).items| == |v.items|
    ensures forall i :: 0 <= i < |v.items| ==> RemoveInternalFields(v).items[i] == RemoveInternalFields(v.items[i])
  {
  }

  lemma {:induction false} RemoveInternalFieldsClean(v: Json)
    decreases v
    ensures NoInternalKeys(RemoveInternalFields(v))
  {
    match v
    case JArray(items) =>
      forall i | 0 <= i < |items| ensures NoInternalKeys(RemoveInternalFields(items[i])) {
        RemoveInternalFieldsClean(items[i]);
      }
    case JObject(entries) => RemoveInternalEntriesClean(entries);
    case _ =>
  }

  lemma {:induction false} RemoveInternalEntriesClean(entries: seq<(string, Json)>)
    decreases entries
    ensures NoInternalKeys(JObject(RemoveInternalEntries(entries)))
  {
    if entries != [] {
      RemoveInternalEntriesClean(entries[1..]);
      assert entries[0] in entries && entries[0].1 < entries[0];
      RemoveInternalFieldsClean(entries[0].1);
      var rest := RemoveInternalEntries(entries[1..]);
      var r := RemoveInternalEntries(entries);
      if !IsInternalKey(entries[0].0) {
        assert r == [(entries[0].0, RemoveInternalFields(entries[0].1))] + rest;
        forall i | 0 <= i < |r| ensures !IsInternalKey(r[i].0) && NoInternalKeys(r[i].1) {
          if i > 0 { assert r[i] == rest[i - 1]; }
        }
      }
    }
  }

  /** A response without internal keys comes back unchanged. */
  lemma {:induction false} RemoveInternalFieldsKeepsClean(v: Json)
    decreases v
    requires NoInternalKeys(v)
    ensures RemoveInternalFields(v) == v
  {
    match v
    case JArray(items) =>
      forall i | 0 <= i < |items| ensures RemoveInternalFields(items[i]) == items[i] {
        RemoveInternalFieldsKeepsClean(items[i]);
      }
      assert RemoveInternalFields(v).items == items;
    case JObject(entries) => RemoveInternalEntriesKeepsClean(entries);
    case _ =>
  }

  lemma {:induction false} RemoveInternalEntriesKeepsClean(entries: seq<(string, Json)>)
    decreases entries
    requires NoInternalKeys(JObject(entries))
    ensures RemoveInternalEntries(entries) == entries
  {
    if entries != [] {
      assert NoInternalKeys(JObject(entries[1..])) by {
        forall i | 0 <= i < |entries[1..]| ensures !IsInternalKey(entries[1..][i].0) && NoInternalKeys(entries[1..][i].1) {
          assert entries[1..][i] == entries[i + 1];
        }
      }
      RemoveInternalEntriesKeepsClean(entries[1..]);
      assert entries[0] in entries && entries[0].1 < entries[0];
      RemoveInternalFieldsKeepsClean(entries[0].1);
      assert entries == [entries[0]] + entries[1..];
    }
  }

  /** Cleaning twice is cleaning once. */
  lemma RemoveInternalFieldsIdempotent(v: Json)
    ensures RemoveInternalFields(RemoveInternalFields(v)) == RemoveInternalFields(v)
  {
    RemoveInternalFieldsClean(v);
    RemoveInternalFieldsKeepsClean(RemoveInternalFields(v));
  }

  /** The keys of a cleaned object: the object's keys that are not internal, in their order. */
  function PublicKeys(keys: seq<string>): seq<string> {
    if keys == [] then [] else (if IsInternalKey(keys[0]) then [] else [keys[0]]) + PublicKeys(keys[1..])
  }

  lemma {:induction false} RemoveInternalEntriesKeys(entries: seq<(string, Json)>)
    ensures Keys(RemoveInternalEntries(entries)) == PublicKeys(Keys(entries))
  {
    if entries != [] {
      RemoveInternalEntriesKeys(entries[1..]);
      assert Keys(entries)[1..] == Keys(entries[1..]);
      var rest := RemoveInternalEntries(entries[1..]);
      if !IsInternalKey(entries[0].0) {
        var r := RemoveInternalEntries(entries);
        assert r == [(entries[0].0, RemoveInternalFields(entries[0].1))] + rest;
        assert Keys(r) == [entries[0].0] + Keys(rest);
      }
    }
  }

  /** A public key keeps its value, cleaned. */
  lemma {:induction false} RemoveInternalEntriesValues(entries: seq<(string, Json)>, key: string)
    requires !IsInternalKey(key)
    ensures Get(RemoveInternalEntries(entries), key) ==
              match Get(entries, key) case None => None case Some(v) => Some(RemoveInternalFields(v))
  {
    if entries != [] {
      RemoveInternalEntriesValues(entries[1..], key);
      var rest := RemoveInternalEntries(entries[1..]);
      var r := RemoveInternalEntries(entries);
      if IsInternalKey(entries[0].0) {
        assert r == rest;
        assert entries[0].0 != key;
      } else {
        assert r == [(entries[0].0, RemoveInternalFields(entries[0].1))] + rest;
        assert r[0] == (entries[0].0, RemoveInternalFields(entries[0].1)) && r[1..] == rest;
      }
    }
  }

  // ----- the execution result -----

  datatype GraphQLError = GraphQLError(message: string)

  /** A GraphQL response: absent `data` and `errors` are None. */
  datatype ExecutionResult = ExecutionResult(data: Option<Json>, errors: Option<seq<GraphQLError>>)

  /** `prepareExecutionResult`: `exported` is None when the plan's result or its
      `exported` is undefined. */
  function PrepareExecutionResult(exported: Option<Json>, errors: seq<GraphQLError>): (r: ExecutionResult)
    ensures r.data.None? <==> exported.None? || exported.value == JNull
    ensures r.data.Some? ==> r.data.value == RemoveInternalFields(exported.value) && NoInternalKeys(r.data.value)
    ensures r.errors.None? <==> |errors| == 0
    ensures r.errors.Some? ==> r.errors.value == errors
  {
    RemoveInternalFieldsCleanAt(exported);
    ExecutionResult(if exported.Some? && exported.value != JNull then Some(RemoveInternalFields(exported.value)) else None,
                    if |errors| > 0 then Some(errors) else None)
  }

  lemma RemoveInternalFieldsCleanAt(exported: Option<Json>)
    ensures exported.Some? ==> NoInternalKeys(RemoveInternalFields(exported.value))
  {
    if exported.Some? {
      RemoveInternalFieldsClean(exported.value);
    }
  }

  /** What the parallel plan executor reports: the exported tree and the errors collected. */
  datatype EngineOutcome = EngineOutcome(exported: Option<Json>, errors: seq<GraphQLError>)

  /** `executeResolverOperationNodesWithDependenciesInParallel`, on the plan's nodes and
      the input variables. */
  type Engine = (OperationPlan, seq<(string, Json)>) -> EngineOutcome

  /** `executeOperationPlan`; a caller without variables passes the empty object. The
      engine runs on the merged variables, and what it exports reaches the caller without
      internal keys. */
  function ExecuteOperationPlan(plan: OperationPlan, engine: Engine, variables: Option<seq<(string, Json)>>): (r: ExecutionResult)
    ensures var outcome := engine(plan, InputVariables(plan.defaultVariables, variables.GetOr([])));
            (r.data.None? <==> outcome.exported.None? || outcome.exported.value == JNull) &&
            (r.data.Some? ==> NoInternalKeys(r.data.value)) &&
            (r.errors.None? <==> |outcome.errors| == 0) &&
            r == PrepareExecutionResult(outcome.exported, outcome.errors)
  {
    var outcome := engine(plan, InputVariables(plan.defaultVariables, variables.GetOr([])));
    PrepareExecutionResult(outcome.exported, outcome.errors)
  }
}

=== FILE: outcomes.dfy ===
/** Optional values and error-carrying results, used wherever the gateway returns
    `undefined` or throws. */
module Outcomes {

  datatype Option<+T> = None | Some(value: T) {
    function GetOr(default: T): T {
      match this
      case Some(v) => v
      case None => default
    }
  }

  datatype Result<+T, +E> = Ok(value: T) | Err(error: E)
}

=== FILE: resolver_text.dfy ===
/** Reading a synthesized resolver operation back: a small reader for the text the
    ROOT_FIELD mapper writes, and the theorem that it recovers the operation type, the
    operation name, one variable declaration per argument and one binding of each argument
    to the variable of the same name. */
module ResolverText {
  import opened Outcomes
  import opened Values
  import opened Syntax
  import opened Composition

  /** Characters of a GraphQL name. */
  predicate IsNameChar(c: char) {
    ('a' <= c <= 'z') || ('A' <= c <= 'Z') || ('0' <= c <= '9') || c == '_'
  }

  predicate IsName(s: string) {
    |s| > 0 && forall i :: 0 <= i < |s| ==> IsNameChar(s[i])
  }

  /** Every named type a type reference mentions is a GraphQL name. */
  predicate TypeNamesAreNames(t: TypeRef) {
    match t
    case NamedType(n) => IsName(n)
    case ListType(inner) => TypeNamesAreNames(inner)
    case NonNullType(inner) => TypeNamesAreNames(inner)
  }

  /** The text before the first `c` and the text after it. */
  function SplitFirst(s: string, c: char): (r: Option<(string, string)>)
    ensures r.None? <==> c !in s
    ensures r.Some? ==> s == r.value.0 + [c] + r.value.1 && c !in r.value.0
  {
    if s == [] then None
    else if s[0] == c then Some(([], s[1..]))
    else match SplitFirst(s[1..], c)
      case None => None
      case Some((before, after)) => Some(([s[0]] + before, after))
  }

  /** The items of a `, `-separated list. */
  function ReadList(s: string): (r: seq<string>)
    decreases |s|
    ensures |r| > 0
  {
    match SplitFirst(s, ',')
    case None => [s]
    case Some((item, rest)) =>
      if |rest| > 0 && rest[0] == ' ' then [item] + ReadList(rest[1..]) else [item] + ReadList(rest)
  }

  /** A name followed by an optional parenthesized list: `name` or `name(a, b)`. */
  function ReadHeader(s: string): Option<(string, seq<string>)> {
    match SplitFirst(s, '(')
    case None => Some((s, []))
    case Some((name, rest)) =>
      if |rest| > 0 && rest[|rest| - 1] == ')' then Some((name, ReadList(rest[..|rest| - 1]))) else None
  }

  /** `$name: Type` or `$name: Type = default`. */
  datatype VariableDeclaration = VariableDeclaration(name: string, typeText: string, defaultText: Option<string>)

  function ReadVariableDefinition(s: string): Option<VariableDeclaration> {
    if |s| == 0 || s[0] != '$' then None
    else match SplitFirst(s[1..], ':')
      case None => None
      case Some((name, rest)) =>
        if |rest| == 0 || rest[0] != ' ' then None
        else match SplitFirst(rest[1..], ' ')
          case None => Some(VariableDeclaration(name, rest[1..], None))
          case Some((typeText, tail)) =>
            if |tail| >= 2 && tail[..2] == "= " then Some(VariableDeclaration(name, typeText, Some(tail[2..]))) else None
  }

  /** `argument: $variable`. */
  function ReadBinding(s: string): Option<(string, string)> {
    match SplitFirst(s, ':')
    case None => None
    case Some((name, rest)) =>
      if |rest| >= 2 && rest[..2] == " $" then Some((name, rest[2..])) else None
  }

  function ReadVariableDefinitions(parts: seq<string>): Option<seq<VariableDeclaration>> {
    if parts == [] then Some([])
    else match (ReadVariableDefinition(parts[0]), ReadVariableDefinitions(parts[1..]))
      case (Some(d), Some(ds)) => Some([d] + ds)
      case _ => None
  }

  function ReadBindings(parts: seq<string>): Option<seq<(string, string)>> {
    if parts == [] then Some([])
    else match (ReadBinding(parts[0]), ReadBindings(parts[1..]))
      case (Some(b), Some(bs)) => Some([b] + bs)
      case _ => None
  }

  function OperationTypeOf(keyword: string): Option<OperationType> {
    if keyword == "query" then Some(Query)
    else if keyword == "mutation" then Some(Mutation)
    else if keyword == "subscription" then Some(Subscription)
    else None
  }

  /** What a single-field operation declares and selects. */
  datatype ParsedOperation = ParsedOperation(operation: OperationType, name: string,
                                             variables: seq<VariableDeclaration>,
                                             field: string, bindings: seq<(string, string)>)

  /** `keyword name(variables) { field(bindings) }`, each list with its parentheses optional. */
  function ReadOperation(text: string): Option<ParsedOperation> {
    match SplitFirst(text, ' ')
    case None => None
    case Some((keyword, afterKeyword)) =>
      match OperationTypeOf(keyword)
      case None => None
      case Some(t) =>
        match SplitFirst(afterKeyword, '{')
        case None => None
        case Some((head, body)) =>
          if |head| == 0 || head[|head| - 1] != ' ' || |body| < 3 || body[0] != ' ' || body[|body| - 2..] != " }" then None
          else match (ReadHeader(head[..|head| - 1]), ReadHeader(body[1..|body| - 2]))
            case (Some((name, variableTexts)), Some((field, argumentTexts))) =>
              (match (ReadVariableDefinitions(variableTexts), ReadBindings(argumentTexts))
               case (Some(variables), Some(bindings)) => Some(ParsedOperation(t, name, variables, field, bindings))
               case _ => None)
            case _ => None
  }

  // ----- what the reader is expected to recover -----

  /** The declaration an argument turns into: its name, its printed type and, when its
      default is truthy, the printed default. */
  function Declaration(a: ArgumentDef): VariableDeclaration {
    VariableDeclaration(a.name, PrintType(a.typeRef),
                        if a.defaultValue.Some? && Truthy(a.defaultValue.value) then Some(DefaultText(a.defaultValue.value)) else None)
  }

  /** The arguments can be read back: names are GraphQL names and a written default holds
      neither a comma nor an opening brace. */
  predicate ReadableArgument(a: ArgumentDef) {
    IsName(a.name) && TypeNamesAreNames(a.typeRef) &&
    (a.defaultValue.Some? && Truthy(a.defaultValue.value) ==>
       ',' !in DefaultText(a.defaultValue.value) && '{' !in DefaultText(a.defaultValue.value))
  }

  predicate ReadableField(f: FieldDef) {
    IsName(f.name) && forall a :: a in f.args ==> ReadableArgument(a)
  }

  // ----- lemmas about the pieces -----

  lemma {:induction false} SplitFirstConcat(a: string, b: string, c: char)
    requires c !in a
    ensures SplitFirst(a + [c] + b, c) == Some((a, b))
  {
    if a != [] {
      SplitFirstConcat(a[1..], b, c);
      assert (a + [c] + b)[1..] == a[1..] + [c] + b;
      assert [a[0]] + a[1..] == a;
    } else {
      assert a + [c] + b == [c] + b;
    }
  }

  lemma NameExcludes(s: string, c: char)
    requires IsName(s) && !IsNameChar(c)
    ensures c !in s
  {
    forall i | 0 <= i < |s|
      ensures s[i] != c
    {
      assert IsNameChar(s[i]);
    }
  }

  lemma {:induction false} TypeTextExcludes(t: TypeRef, c: char)
    requires TypeNamesAreNames(t) && !IsNameChar(c) && c != '[' && c != ']' && c != '!'
    ensures c !in PrintType(t)
  {
    match t
    case NamedType(n) => NameExcludes(n, c);
    case ListType(inner) => TypeTextExcludes(inner, c);
    case NonNullType(inner) => TypeTextExcludes(inner, c);
  }

  lemma {:induction false} JoinExcludes(parts: seq<string>, sep: string, c: char)
    requires c !in sep && forall p :: p in parts ==> c !in p
    ensures c !in Join(parts, sep)
  {
    if |parts| > 1 {
      JoinExcludes(parts[1..], sep, c);
      assert parts[0] in parts;
    } else if |parts| == 1 {
      assert parts[0] in parts;
    }
  }

  lemma {:induction false} ReadListJoin(parts: seq<string>)
    requires |parts| > 0 && forall p :: p in parts ==> ',' !in p
    ensures ReadList(Join(parts, ", ")) == parts
  {
    assert parts[0] in parts;
    if |parts| == 1 {
      assert Join(parts, ", ") == parts[0];
    } else {
      var rest := Join(parts[1..], ", ");
      assert Join(parts, ", ") == parts[0] + [','] + (" " + rest);
      SplitFirstConcat(parts[0], " " + rest, ',');
      assert (" " + rest)[1..] == rest;
      ReadListJoin(parts[1..]);
      assert [parts[0]] + parts[1..] == parts;
    }
  }

  lemma ReadHeaderOf(name: string, parts: seq<string>)
    requires '(' !in name && forall p :: p in parts ==> ',' !in p
    ensures ReadHeader(name + Parenthesized(parts)) == Some((name, parts))
  {
    if |parts| == 0 {
      assert name + Parenthesized(parts) == name;
    } else {
      var j := Join(parts, ", ");
      assert name + Parenthesized(parts) == name + ['('] + (j + ")");
      SplitFirstConcat(name, j + ")", '(');
      assert (j + ")")[..|j + ")"| - 1] == j;
      ReadListJoin(parts);
    }
  }

  /** The variable-definition reader inverts `$name: Type` and `$name: Type = default`. */
  /** Reading `$name: ` followed by `rest`: the name is read up to the colon. */
  lemma ReadDeclarationName(name: string, rest: string)
    requires ':' !in name
    ensures ("$" + name + ": " + rest)[0] == '$'
    ensures SplitFirst(("$" + name + ": " + rest)[1..], ':') == Some((name, " " + rest))
  {
    assert ("$" + name + ": " + rest)[1..] == name + [':'] + (" " + rest);
    SplitFirstConcat(name, " " + rest, ':');
  }

  lemma ReadDeclarationWithoutDefault(name: string, typeText: string)
    requires ':' !in name && ' ' !in typeText
    ensures ReadVariableDefinition("$" + name + ": " + typeText) == Some(VariableDeclaration(name, typeText, None))
  {
    ReadDeclarationName(name, typeText);
    assert (" " + typeText)[1..] == typeText;
  }

  lemma ReadDeclarationWithDefault(name: string, typeText: string, defaultText: string)
    requires ':' !in name && ' ' !in typeText
    ensures ReadVariableDefinition("$" + name + ": " + typeText + " = " + defaultText)
            == Some(VariableDeclaration(name, typeText, Some(defaultText)))
  {
    var rest := typeText + [' '] + ("= " + defaultText);
    assert "$" + name + ": " + typeText + " = " + defaultText == "$" + name + ": " + rest;
    ReadDeclarationName(name, rest);
    assert (" " + rest)[1..] == rest;
    SplitFirstConcat(typeText, "= " + defaultText, ' ');
    assert ("= " + defaultText)[..2] == "= " && ("= " + defaultText)[2..] == defaultText;
  }

  lemma ReadVariableDefinitionOf(a: ArgumentDef)
    requires ReadableArgument(a)
    ensures ReadVariableDefinition(VariableDefinitionText(a)) == Some(Declaration(a))
  {
    NameExcludes(a.name, ':');
    TypeTextExcludes(a.typeRef, ' ');
    var ty := PrintType(a.typeRef);
    if a.defaultValue.Some? && Truthy(a.defaultValue.value) {
      var dt := DefaultText(a.defaultValue.value);
      assert VariableDefinitionText(a) == "$" + a.name + ": " + ty + (" = " + dt);
      assert "$" + a.name + ": " + ty + (" = " + dt) == "$" + a.name + ": " + ty + " = " + dt;
      ReadDeclarationWithDefault(a.name, ty, dt);
    } else {
      assert VariableDefinitionText(a) == "$" + a.name + ": " + ty + "";
      assert "$" + a.name + ": " + ty + "" == "$" + a.name + ": " + ty;
      ReadDeclarationWithoutDefault(a.name, ty);
    }
  }

  /** The declarations of a list of arguments, in order. */
  function Declarations(args: seq<ArgumentDef>): (r: seq<VariableDeclaration>)
    ensures |r| == |args| && forall i :: 0 <= i < |args| ==> r[i] == Declaration(args[i])
  {
    seq(|args|, i requires 0 <= i < |args| => Declaration(args[i]))
  }

  /** Each argument bound to the variable of the same name, in order. */
  function Bindings(args: seq<ArgumentDef>): (r: seq<(string, string)>)
    ensures |r| == |args| && forall i :: 0 <= i < |args| ==> r[i] == (args[i].name, args[i].name)
  {
    seq(|args|, i requires 0 <= i < |args| => (args[i].name, args[i].name))
  }

  lemma ReadBindingOf(a: ArgumentDef)
    requires IsName(a.name)
    ensures ReadBinding(ArgumentText(a)) == Some((a.name, a.name))
  {
    assert ArgumentText(a) == a.name + [':'] + (" $" + a.name);
    NameExcludes(a.name, ':');
    SplitFirstConcat(a.name, " $" + a.name, ':');
    assert (" $" + a.name)[..2] == " $" && (" $" + a.name)[2..] == a.name;
  }

  lemma {:induction false} ReadVariableDefinitionsOf(args: seq<ArgumentDef>)
    requires forall a :: a in args ==> ReadableArgument(a)
    ensures ReadVariableDefinitions(VariableDefinitionTexts(args)) == Some(Declarations(args))
  {
    if args != [] {
      var texts := VariableDefinitionTexts(args);
      assert args[0] in args;
      ReadVariableDefinitionOf(args[0]);
      ReadVariableDefinitionsOf(args[1..]);
      assert texts[1..] == VariableDefinitionTexts(args[1..]);
      assert Declarations(args) == [Declaration(args[0])] + Declarations(args[1..]);
    }
  }

  lemma {:induction false} ReadBindingsOf(args: seq<ArgumentDef>)
    requires forall a :: a in args ==> IsName(a.name)
    ensures ReadBindings(ArgumentTexts(args)) == Some(Bindings(args))
  {
    if args != [] {
      var texts := ArgumentTexts(args);
      assert args[0] in args;
      ReadBindingOf(args[0]);
      ReadBindingsOf(args[1..]);
      assert texts[1..] == ArgumentTexts(args[1..]);
      assert Bindings(args) == [(args[0].name, args[0].name)] + Bindings(args[1..]);
    }
  }

  /** Neither a comma nor an opening brace appears in a variable definition or an argument
      binding of a readable field. */
  lemma TextsExclude(f: FieldDef)
    requires ReadableField(f)
    ensures forall p :: p in VariableDefinitionTexts(f.args) ==> ',' !in p && '{' !in p
    ensures forall p :: p in ArgumentTexts(f.args) ==> ',' !in p && '{' !in p
  {
    forall p | p in VariableDefinitionTexts(f.args)
      ensures ',' !in p && '{' !in p
    {
      var i :| 0 <= i < |f.args| && VariableDefinitionTexts(f.args)[i] == p;
      var a := f.args[i];
      assert a in f.args;
      NameExcludes(a.name, ','); NameExcludes(a.name, '{');
      TypeTextExcludes(a.typeRef, ','); TypeTextExcludes(a.typeRef, '{');
    }
    forall p | p in ArgumentTexts(f.args)
      ensures ',' !in p && '{' !in p
    {
      var i :| 0 <= i < |f.args| && ArgumentTexts(f.args)[i] == p;
      var a := f.args[i];
      assert a in f.args;
      NameExcludes(a.name, ','); NameExcludes(a.name, '{');
    }
  }

  lemma ParenthesizedExcludes(parts: seq<string>, c: char)
    requires c != '(' && c != ')' && c != ',' && c != ' ' && forall p :: p in parts ==> c !in p
    ensures c !in Parenthesized(parts)
  {
    JoinExcludes(parts, ", ", c);
  }

  lemma OperationNameIsName(t: OperationType, fieldName: string)
    requires IsName(fieldName)
    ensures IsName(OperationName(t, fieldName))
  {
    if t != Query {
      var k := Keyword(t);
      assert IsName(k);
      var n := k + fieldName;
      forall i | 0 <= i < |n|
        ensures IsNameChar(n[i])
      {
        if i < |k| {
          assert n[i] == k[i];
        } else {
          assert n[i] == fieldName[i - |k|];
        }
      }
    }
  }

  /** The reader splits `keyword name(...) { field(...) }` at the first space and the
      first brace. */
  lemma ReadOperationParts(t: OperationType, name: string, variableList: string, field: string, argumentList: string)
    requires '{' !in name && '{' !in variableList
    ensures ReadOperation(Keyword(t) + " " + name + variableList + " { " + field + argumentList + " }") ==
            match (ReadHeader(name + variableList), ReadHeader(field + argumentList))
            case (Some((name, variableTexts)), Some((field, argumentTexts))) =>
              (match (ReadVariableDefinitions(variableTexts), ReadBindings(argumentTexts))
               case (Some(variables), Some(bindings)) => Some(ParsedOperation(t, name, variables, field, bindings))
               case _ => None)
            case _ => None
  {
    var k := Keyword(t);
    var head := name + variableList;
    var body := field + argumentList;
    var afterKeyword := head + " { " + body + " }";
    var before := head + " ";
    var after := " " + body + " }";
    assert k + " " + name + variableList + " { " + field + argumentList + " }" == k + [' '] + afterKeyword;
    assert ' ' !in k && OperationTypeOf(k) == Some(t);
    SplitFirstConcat(k, afterKeyword, ' ');
    assert afterKeyword == before + ['{'] + after;
    SplitFirstConcat(before, after, '{');
    assert before[..|before| - 1] == head;
    assert after[1..|after| - 2] == body;
    assert after[|after| - 2..] == " }";
  }

  /** The resolver operation of a root field reads back as an operation of the field's
      operation type, named after the field, declaring one variable per argument with the
      argument's type and truthy default, and selecting the field with each argument bound
      to the variable of the same name. */
  lemma ReadResolverOperation(t: OperationType, f: FieldDef)
    requires ReadableField(f)
    ensures ReadOperation(ResolverOperation(t, f)) ==
            Some(ParsedOperation(t, OperationName(t, f.name), Declarations(f.args), f.name, Bindings(f.args)))
  {
    var n := OperationName(t, f.name);
    OperationNameIsName(t, f.name);
    NameExcludes(n, '{');
    NameExcludes(n, '(');
    NameExcludes(f.name, '(');
    TextsExclude(f);
    ParenthesizedExcludes(VariableDefinitionTexts(f.args), '{');
    ReadOperationParts(t, n, Parenthesized(VariableDefinitionTexts(f.args)), f.name, Parenthesized(ArgumentTexts(f.args)));
    ReadHeaderOf(n, VariableDefinitionTexts(f.args));
    ReadHeaderOf(f.name, ArgumentTexts(f.args));
    ReadVariableDefinitionsOf(f.args);
    ReadBindingsOf(f.args);
  }
}

=== FILE: runtime.dfy ===
/** The gateway runtime: reading transport entries from the supergraph, building one
    executor per subgraph on first use and wrapping it with the plugins' hooks, the plan
    cache, and the introspection short-circuit of the server plugin. */
module Runtime {
  import opened Outcomes
  import opened Values
  import opened Syntax
  import opened SubgraphExtraction
  import opened Operations

  // ----- transport entries -----

  /** How to reach one subgraph; an absent field of the directive is None. */
  datatype TransportEntry = TransportEntry(kind: Option<Json>, location: Option<Json>, headers: Option<Json>,
                                           options: seq<(string, Json)>)

  predicate IsEntryField(key: string) {
    key == "kind" || key == "subgraph" || key == "location" || key == "headers"
  }

  /** The rest of a directive's arguments once kind, subgraph, location and headers are taken. */
  function RestOptions(args: seq<(string, Json)>): seq<(string, Json)> {
    if args == [] then []
    else (if IsEntryField(args[0].0) then [] else [args[0]]) + RestOptions(args[1..])
  }

  lemma {:induction false} RestOptionsMembers(args: seq<(string, Json)>)
    ensures forall e :: e in RestOptions(args) <==> e in args && !IsEntryField(e.0)
  {
    if args != [] {
      RestOptionsMembers(args[1..]);
      assert args == [args[0]] + args[1..];
    }
  }

  function EntryOf(args: seq<(string, Json)>): TransportEntry {
    TransportEntry(Get(args, "kind"), Get(args, "location"), Get(args, "headers"), RestOptions(args))
  }

  /** The property key `subgraph` is stored under: its string form, "undefined" when absent. */
  function EntryKey(args: seq<(string, Json)>): string {
    match Get(args, "subgraph")
    case None => "undefined"
    case Some(v) => ToString(v)
  }

  /** The transport map after the given `transport` directives are read in order. */
  function TransportMap(directives: seq<seq<(string, Json)>>): seq<(string, TransportEntry)> {
    if directives == [] then []
    else
      var d := directives[|directives| - 1];
      Put(TransportMap(directives[..|directives| - 1]), EntryKey(d), EntryOf(d))
  }

  /** The entry of the last directive naming the subgraph. */
  function LastEntry(directives: seq<seq<(string, Json)>>, key: string): Option<TransportEntry> {
    if directives == [] then None
    else if EntryKey(directives[|directives| - 1]) == key then Some(EntryOf(directives[|directives| - 1]))
    else LastEntry(directives[..|directives| - 1], key)
  }

  /** `getSubgraphTransportMapFromSupergraph`. */
  method GetSubgraphTransportMap(supergraph: Supergraph) returns (subgraphTransportEntryMap: seq<(string, TransportEntry)>)
    ensures subgraphTransportEntryMap == TransportMap(supergraph.transportDirectives)
  {
    subgraphTransportEntryMap := [];
    var transportDirectives := supergraph.transportDirectives;
    if |transportDirectives| > 0 {
      for i := 0 to |transportDirectives|
        invariant subgraphTransportEntryMap == TransportMap(transportDirectives[..i])
      {
        assert transportDirectives[..i + 1][..i] == transportDirectives[..i];
        var directive := transportDirectives[i];
        subgraphTransportEntryMap := Put(subgraphTransportEntryMap, EntryKey(directive),
                                         TransportEntry(Get(directive, "kind"), Get(directive, "location"),
                                                        Get(directive, "headers"), RestOptions(directive)));
      }
      assert transportDirectives[..|transportDirectives|] == transportDirectives;
    }
  }

  /** Each subgraph maps to the entry of the last directive naming it; nothing else is in
      the map. */
  lemma {:induction false} TransportMapLastWins(directives: seq<seq<(string, Json)>>, key: string)
    ensures Get(TransportMap(directives), key) == LastEntry(directives, key)
  {
    if directives != [] {
      var d := directives[|directives| - 1];
      TransportMapLastWins(directives[..|directives| - 1], key);
      GetPut(TransportMap(directives[..|directives| - 1]), EntryKey(d), EntryOf(d), key);
    }
  }

  lemma {:induction false} LastEntryAt(directives: seq<seq<(string, Json)>>, key: string, i: nat)
    requires i < |directives| && EntryKey(directives[i]) == key
    ensures LastEntry(directives, key).Some?
  {
    var last := |directives| - 1;
    if i < last && EntryKey(directives[last]) != key {
      LastEntryAt(directives[..last], key, i);
    }
  }

  lemma {:induction false} LastEntryWitness(directives: seq<seq<(string, Json)>>, key: string) returns (i: nat)
    requires LastEntry(directives, key).Some?
    ensures i < |directives| && EntryKey(directives[i]) == key
  {
    var last := |directives| - 1;
    if EntryKey(directives[last]) == key {
      i := last;
    } else {
      i := LastEntryWitness(directives[..last], key);
    }
  }

  lemma LastEntryFound(directives: seq<seq<(string, Json)>>, key: string)
    ensures LastEntry(directives, key).Some? <==> exists i :: 0 <= i < |directives| && EntryKey(directives[i]) == key
  {
    if LastEntry(directives, key).Some? {
      var i := LastEntryWitness(directives, key);
    }
    forall i | 0 <= i < |directives| && EntryKey(directives[i]) == key ensures LastEntry(directives, key).Some? {
      LastEntryAt(directives, key, i);
    }
  }

  /** The map holds exactly the subgraphs some directive names. */
  lemma TransportMapKeys(directives: seq<seq<(string, Json)>>, key: string)
    ensures key in Keys(TransportMap(directives)) <==> exists i :: 0 <= i < |directives| && EntryKey(directives[i]) == key
  {
    TransportMapLastWins(directives, key);
    LastEntryFound(directives, key);
  }

  // ----- hooks -----

  /** An executor, by identity; what it answers is given by the `run` parameter. */
  type ExecutorId = nat

  datatype ExecutionRequest = ExecutionRequest(document: Document, variables: Option<seq<(string, Json)>>,
                                               context: Option<Json>, operationName: Option<string>,
                                               rootValue: Option<Json>)

  /** Running an executor on a request. */
  type Run = (ExecutorId, ExecutionRequest) -> ExecutionResult

  /** What every hook of one subgraph is told besides the request and the executor. */
  datatype HookContext = HookContext(supergraph: Supergraph, subgraphName: string, transportEntry: Option<TransportEntry>)

  datatype HookPayload = HookPayload(supergraph: Supergraph, subgraphName: string,
                                     transportKind: Option<Json>, transportLocation: Option<Json>,
                                     transportHeaders: Option<Json>, transportOptions: Option<seq<(string, Json)>>,
                                     executionRequest: ExecutionRequest, executor: ExecutorId)

  /** A done hook: Some(r) when it called `setResult`, the last value it passed. */
  type DoneHook = ExecutionResult -> Option<ExecutionResult>

  /** What a before hook did: the last executor it passed to `setExecutor`, if any, and the
      done hook it returned, if any. */
  datatype BeforeOutcome = BeforeOutcome(setExecutor: Option<ExecutorId>, onDone: Option<DoneHook>)

  type BeforeHook = HookPayload -> BeforeOutcome

  datatype Plugin = Plugin(onSubgraphExecute: Option<BeforeHook>)

  /** The payload a hook receives while `executor` is the current executor. */
  function Payload(ctx: HookContext, request: ExecutionRequest, executor: ExecutorId): (p: HookPayload)
    ensures p.subgraphName == ctx.subgraphName && p.executionRequest == request && p.executor == executor
    ensures ctx.transportEntry.None? ==> p.transportKind.None? && p.transportLocation.None? &&
                                         p.transportHeaders.None? && p.transportOptions.None?
  {
    match ctx.transportEntry
    case None => HookPayload(ctx.supergraph, ctx.subgraphName, None, None, None, None, request, executor)
    case Some(e) => HookPayload(ctx.supergraph, ctx.subgraphName, e.kind, e.location, e.headers, Some(e.options),
                                request, executor)
  }

  /** The hooks of the plugins that have one, in plugin order. */
  function CollectedHooks(plugins: seq<Plugin>): seq<BeforeHook> {
    if plugins == [] then []
    else
      var last := plugins[|plugins| - 1];
      CollectedHooks(plugins[..|plugins| - 1]) + (if last.onSubgraphExecute.Some? then [last.onSubgraphExecute.value] else [])
  }

  method CollectHooks(plugins: Option<seq<Plugin>>) returns (onSubgraphExecuteHooks: seq<BeforeHook>)
    ensures onSubgraphExecuteHooks == CollectedHooks(plugins.GetOr([]))
  {
    onSubgraphExecuteHooks := [];
    if plugins.Some? {
      var ps := plugins.value;
      for i := 0 to |ps|
        invariant onSubgraphExecuteHooks == CollectedHooks(ps[..i])
      {
        assert ps[..i + 1][..i] == ps[..i];
        if ps[i].onSubgraphExecute.Some? {
          onSubgraphExecuteHooks := onSubgraphExecuteHooks + [ps[i].onSubgraphExecute.value];
        }
      }
      assert ps[..|ps|] == ps;
    }
  }

  /** Only plugins with a hook contribute one, and at most one each. */
  lemma {:induction false} CollectedHooksCount(plugins: seq<Plugin>)
    ensures |CollectedHooks(plugins)| <= |plugins|
    ensures (forall i :: 0 <= i < |plugins| ==> plugins[i].onSubgraphExecute.None?) <==> CollectedHooks(plugins) == []
  {
    if plugins != [] {
      var init := plugins[..|plugins| - 1];
      CollectedHooksCount(init);
      assert forall i :: 0 <= i < |init| ==> init[i] == plugins[i];
    }
  }

  /** The before hooks run in order; each sees the executor as the hooks before it left
      it. Yields the final executor and the done hooks returned, in order. */
  function BeforeChain(hooks: seq<BeforeHook>, ctx: HookContext, request: ExecutionRequest, start: ExecutorId)
    : (ExecutorId, seq<DoneHook>)
  {
    if hooks == [] then (start, [])
    else
      var (current, doneHooks) := BeforeChain(hooks[..|hooks| - 1], ctx, request, start);
      var outcome := hooks[|hooks| - 1](Payload(ctx, request, current));
      (outcome.setExecutor.GetOr(current), doneHooks + (if outcome.onDone.Some? then [outcome.onDone.value] else []))
  }

  /** The done hooks run in order (not reversed); each sees the latest result. */
  function DoneChain(doneHooks: seq<DoneHook>, result: ExecutionResult): ExecutionResult {
    if doneHooks == [] then result
    else doneHooks[|doneHooks| - 1](DoneChain(doneHooks[..|doneHooks| - 1], result)).GetOr(DoneChain(doneHooks[..|doneHooks| - 1], result))
  }

  /** One call of the wrapped executor whose current executor is `cell`: the result, and
      the executor the cell holds afterwards. Without hooks the executor is used unwrapped. */
  function ExecuteWithHooks(hooks: seq<BeforeHook>, ctx: HookContext, cell: ExecutorId, request: ExecutionRequest, run: Run)
    : (ExecutionResult, ExecutorId)
  {
    if hooks == [] then (run(cell, request), cell)
    else
      var (current, doneHooks) := BeforeChain(hooks, ctx, request, cell);
      if doneHooks == [] then (run(current, request), current)
      else (DoneChain(doneHooks, run(current, request)), current)
  }

  /** `executorWithHooks`: the before loop, then the call, then the done loop. */
  method ExecuteHooked(hooks: seq<BeforeHook>, ctx: HookContext, cell: ExecutorId, request: ExecutionRequest, run: Run)
    returns (result: ExecutionResult, currentExecutor: ExecutorId)
    ensures (result, currentExecutor) == ExecuteWithHooks(hooks, ctx, cell, request, run)
  {
    currentExecutor := cell;
    if |hooks| == 0 {
      result := run(currentExecutor, request);
      return;
    }
    var onSubgraphExecuteDoneHooks: seq<DoneHook> := [];
    for i := 0 to |hooks|
      invariant (currentExecutor, onSubgraphExecuteDoneHooks) == BeforeChain(hooks[..i], ctx, request, cell)
    {
      assert hooks[..i + 1][..i] == hooks[..i] && hooks[..i + 1][i] == hooks[i];
      var outcome := hooks[i](Payload(ctx, request, currentExecutor));
      ghost var next := (outcome.setExecutor.GetOr(currentExecutor),
                         onSubgraphExecuteDoneHooks + (if outcome.onDone.Some? then [outcome.onDone.value] else []));
      assert BeforeChain(hooks[..i + 1], ctx, request, cell) == next;
      if outcome.setExecutor.Some? {
        currentExecutor := outcome.setExecutor.value;
      }
      if outcome.onDone.Some? {
        onSubgraphExecuteDoneHooks := onSubgraphExecuteDoneHooks + [outcome.onDone.value];
      }
      assert currentExecutor == next.0 && onSubgraphExecuteDoneHooks == next.1;
    }
    assert hooks[..|hooks|] == hooks;
    if |onSubgraphExecuteDoneHooks| > 0 {
      var initial := run(currentExecutor, request);
      var currentResult := initial;
      for j := 0 to |onSubgraphExecuteDoneHooks|
        invariant currentResult == DoneChain(onSubgraphExecuteDoneHooks[..j], initial)
      {
        assert onSubgraphExecuteDoneHooks[..j + 1][..j] == onSubgraphExecuteDoneHooks[..j];
        var newResult := onSubgraphExecuteDoneHooks[j](currentResult);
        if newResult.Some? {
          currentResult := newResult.value;
        }
      }
      assert onSubgraphExecuteDoneHooks[..|onSubgraphExecuteDoneHooks|] == onSubgraphExecuteDoneHooks;
      result := currentResult;
    } else {
      result := run(currentExecutor, request);
    }
  }

  /** When no hook calls `setExecutor`, every hook sees the starting executor and the call
      uses it. */
  lemma {:induction false} BeforeChainKeepsExecutor(hooks: seq<BeforeHook>, ctx: HookContext, request: ExecutionRequest,
                                                   start: ExecutorId)
    requires forall i, e :: 0 <= i < |hooks| ==> hooks[i](Payload(ctx, request, e)).setExecutor.None?
    ensures BeforeChain(hooks, ctx, request, start).0 == start
  {
    if hooks != [] {
      BeforeChainKeepsExecutor(hooks[..|hooks| - 1], ctx, request, start);
    }
  }

  /** Running the hooks `a + b` is running `a`, then `b` from the executor `a` left; the
      done hooks of `a` come before those of `b`. */
  lemma {:induction false} BeforeChainAppend(a: seq<BeforeHook>, b: seq<BeforeHook>, ctx: HookContext,
                                             request: ExecutionRequest, start: ExecutorId)
    ensures var (afterA, doneA) := BeforeChain(a, ctx, request, start);
            var (afterB, doneB) := BeforeChain(b, ctx, request, afterA);
            BeforeChain(a + b, ctx, request, start) == (afterB, doneA + doneB)
  {
    var (afterA, doneA) := BeforeChain(a, ctx, request, start);
    if b == [] {
      assert a + b == a;
      assert doneA + [] == doneA;
    } else {
      var init := b[..|b| - 1];
      BeforeChainAppend(a, init, ctx, request, start);
      assert (a + b)[..|a + b| - 1] == a + init && (a + b)[|a + b| - 1] == b[|b| - 1];
      var (afterInit, doneInit) := BeforeChain(init, ctx, request, afterA);
      var outcome := b[|b| - 1](Payload(ctx, request, afterInit));
      var extra := if outcome.onDone.Some? then [outcome.onDone.value] else [];
      assert BeforeChain(b, ctx, request, afterA) == (outcome.setExecutor.GetOr(afterInit), doneInit + extra);
      assert (doneA + doneInit) + extra == doneA + (doneInit + extra);
    }
  }

  /** A hook that calls `setExecutor` decides the executor the next hook sees. */
  lemma SetExecutorReachesNextHook(hooks: seq<BeforeHook>, ctx: HookContext, request: ExecutionRequest, start: ExecutorId,
                                   k: nat, e: ExecutorId)
    requires k < |hooks|
    requires hooks[k](Payload(ctx, request, BeforeChain(hooks[..k], ctx, request, start).0)).setExecutor == Some(e)
    ensures BeforeChain(hooks[..k + 1], ctx, request, start).0 == e
  {
    assert hooks[..k + 1][..k] == hooks[..k];
  }

  /** The last `setExecutor` wins: when hook `k` sets `e` and no later hook sets an
      executor, every later hook sees `e`, the call runs on `e` and the cell keeps `e`. */
  lemma LastSetExecutorWins(hooks: seq<BeforeHook>, ctx: HookContext, request: ExecutionRequest, start: ExecutorId,
                            run: Run, k: nat, e: ExecutorId)
    requires k < |hooks|
    requires hooks[k](Payload(ctx, request, BeforeChain(hooks[..k], ctx, request, start).0)).setExecutor == Some(e)
    requires forall i, x :: k < i < |hooks| ==> hooks[i](Payload(ctx, request, x)).setExecutor.None?
    ensures forall j :: k < j <= |hooks| ==> BeforeChain(hooks[..j], ctx, request, start).0 == e
    ensures ExecuteWithHooks(hooks, ctx, start, request, run)
              == (DoneChain(BeforeChain(hooks, ctx, request, start).1, run(e, request)), e)
  {
    forall j | k < j <= |hooks| ensures BeforeChain(hooks[..j], ctx, request, start).0 == e {
      SetExecutorPersists(hooks, ctx, request, start, k, e, j);
    }
    assert hooks[..|hooks|] == hooks;
  }

  lemma SetExecutorPersists(hooks: seq<BeforeHook>, ctx: HookContext, request: ExecutionRequest, start: ExecutorId,
                            k: nat, e: ExecutorId, j: nat)
    requires k < j <= |hooks|
    requires hooks[k](Payload(ctx, request, BeforeChain(hooks[..k], ctx, request, start).0)).setExecutor == Some(e)
    requires forall i, x :: k < i < |hooks| ==> hooks[i](Payload(ctx, request, x)).setExecutor.None?
    ensures BeforeChain(hooks[..j], ctx, request, start).0 == e
  {
    SetExecutorReachesNextHook(hooks, ctx, request, start, k, e);
    var later := hooks[k + 1..j];
    assert hooks[..j] == hooks[..k + 1] + later;
    BeforeChainAppend(hooks[..k + 1], later, ctx, request, start);
    forall i, x | 0 <= i < |later| ensures later[i](Payload(ctx, request, x)).setExecutor.None? {
      assert later[i] == hooks[k + 1 + i];
    }
    BeforeChainKeepsExecutor(later, ctx, request, e);
  }

  /** When no done hook calls `setResult`, the executor's result is returned. */
  lemma {:induction false} DoneChainKeepsResult(doneHooks: seq<DoneHook>, result: ExecutionResult)
    requires forall i, r :: 0 <= i < |doneHooks| ==> doneHooks[i](r).None?
    ensures DoneChain(doneHooks, result) == result
  {
    if doneHooks != [] {
      DoneChainKeepsResult(doneHooks[..|doneHooks| - 1], result);
    }
  }

  /** Done hooks run in registration order: the hooks `b` registered after `a` run on the
      result `a` leaves. */
  lemma {:induction false} DoneChainAppend(a: seq<DoneHook>, b: seq<DoneHook>, result: ExecutionResult)
    ensures DoneChain(a + b, result) == DoneChain(b, DoneChain(a, result))
  {
    if b == [] {
      assert a + b == a;
    } else {
      var init := b[..|b| - 1];
      DoneChainAppend(a, init, result);
      assert (a + b)[..|a + b| - 1] == a + init && (a + b)[|a + b| - 1] == b[|b| - 1];
    }
  }

  /** The last `setResult` wins: when hook `k`, given the result the earlier hooks left,
      sets `v` and no later hook sets a result, the chain returns `v`. */
  lemma LastSetResultWins(doneHooks: seq<DoneHook>, result: ExecutionResult, k: nat, v: ExecutionResult)
    requires k < |doneHooks|
    requires doneHooks[k](DoneChain(doneHooks[..k], result)) == Some(v)
    requires forall i, x :: k < i < |doneHooks| ==> doneHooks[i](x).None?
    ensures DoneChain(doneHooks, result) == v
  {
    var later := doneHooks[k + 1..];
    assert doneHooks == doneHooks[..k + 1] + later;
    assert doneHooks[..k + 1][..k] == doneHooks[..k];
    DoneChainAppend(doneHooks[..k + 1], later, result);
    forall i, x | 0 <= i < |later| ensures later[i](x).None? {
      assert later[i] == doneHooks[k + 1 + i];
    }
    DoneChainKeepsResult(later, v);
  }

  // ----- the plan cache -----

  /** The plan cache as written: keyed on the supergraph and the document only. A planning
      error is thrown before anything is stored. */
  class PlanMemoByDocument {
    var plans: map<(Supergraph, Document), OperationPlan>
    const flatten: Flatten
    const planner: Planner
    const makeExecutable: MakeExecutable

    constructor (flatten: Flatten, planner: Planner, makeExecutable: MakeExecutable)
      ensures this.flatten == flatten && this.planner == planner && this.makeExecutable == makeExecutable
      ensures plans == map[]
    {
      this.flatten := flatten;
      this.planner := planner;
      this.makeExecutable := makeExecutable;
      plans := map[];
    }

    method GetPlan(supergraph: Supergraph, document: Document, operationName: Option<string>)
      returns (r: Result<OperationPlan, PlanError>)
      modifies this
      ensures (supergraph, document) in old(plans) ==> r == Ok(old(plans)[(supergraph, document)]) && plans == old(plans)
      ensures (supergraph, document) !in old(plans) ==>
                r == CreateExecutablePlan(supergraph, document, operationName, flatten, planner, makeExecutable) &&
                plans == if r.Ok? then old(plans)[(supergraph, document) := r.value] else old(plans)
    {
      var key := (supergraph, document);
      if key in plans {
        return Ok(plans[key]);
      }
      r := CreateExecutablePlan(supergraph, document, operationName, flatten, planner, makeExecutable);
      if r.Ok? {
        plans := plans[key := r.value];
      }
    }
  }

  /** A document with two named operations: A defines `$x` with default 1, B has no
      variables. */
  function TwoOperationDocument(): Document {
    Document([
      Operation(OperationDefinition(Query, Some("A"), [VariableDefinition("x", NamedType("Int"), Some(IntValue("1")))], [])),
      Operation(OperationDefinition(Query, Some("B"), [], []))
    ])
  }

  /** Asking for B after A, with the same document, returns the cached plan of A: its
      default variables hold `x`, while the plan of B has none. */
  method StalePlanForSecondOperation(flatten: Flatten, planner: Planner, makeExecutable: MakeExecutable)
    returns (second: Result<OperationPlan, PlanError>)
    ensures second.Ok? && second.value.defaultVariables == [("x", JNumber("1"))]
    ensures CreateExecutablePlan(SampleSupergraph(), TwoOperationDocument(), Some("B"), flatten, planner, makeExecutable).Ok?
    ensures CreateExecutablePlan(SampleSupergraph(), TwoOperationDocument(), Some("B"), flatten, planner, makeExecutable).value.defaultVariables == []
    ensures second != CreateExecutablePlan(SampleSupergraph(), TwoOperationDocument(), Some("B"), flatten, planner, makeExecutable)
  {
    var memo := new PlanMemoByDocument(flatten, planner, makeExecutable);
    var document := TwoOperationDocument();
    PlanOfNamedOperation();
    var first := memo.GetPlan(SampleSupergraph(), document, Some("A"));
    second := memo.GetPlan(SampleSupergraph(), document, Some("B"));
  }

  /** A supergraph with a query root type only. */
  function SampleSupergraph(): Supergraph {
    Supergraph(0, map[Query := "Query"], [], [])
  }

  lemma PlanOfNamedOperation()
    ensures SelectOperation(TwoOperationDocument().definitions, Some("A")) == Ok(TwoOperationDocument().definitions[0].op)
    ensures SelectOperation(TwoOperationDocument().definitions, Some("B")) == Ok(TwoOperationDocument().definitions[1].op)
    ensures DefaultVariables(TwoOperationDocument().definitions[0].op.variableDefinitions) == [("x", JNumber("1"))]
    ensures DefaultVariables(TwoOperationDocument().definitions[1].op.variableDefinitions) == []
  {
    var defs := TwoOperationDocument().definitions;
    assert defs[..|defs| - 1] == [defs[0]] && [defs[0]][..0] == [];
    assert SelectFrom([defs[0]], Some("A")) == Ok(Some(defs[0].op));
    assert SelectFrom([defs[0]], Some("B")) == Ok(None);
    var vds := defs[0].op.variableDefinitions;
    assert vds[..|vds| - 1] == [];
  }

  /** The plan cache keyed on the supergraph, the document and the operation name. */
  class PlanMemo {
    var plans: map<(Supergraph, Document, Option<string>), OperationPlan>
    ghost var planningRuns: nat
    const flatten: Flatten
    const planner: Planner
    const makeExecutable: MakeExecutable

    /** Every cached plan is the plan its key describes. */
    ghost predicate Valid()
      reads this
    {
      forall k :: k in plans ==> CreateExecutablePlan(k.0, k.1, k.2, flatten, planner, makeExecutable) == Ok(plans[k])
    }

    constructor (flatten: Flatten, planner: Planner, makeExecutable: MakeExecutable)
      ensures this.flatten == flatten && this.planner == planner && this.makeExecutable == makeExecutable
      ensures plans == map[] && planningRuns == 0 && Valid()
    {
      this.flatten := flatten;
      this.planner := planner;
      this.makeExecutable := makeExecutable;
      plans := map[];
      planningRuns := 0;
    }

    method GetPlan(supergraph: Supergraph, document: Document, operationName: Option<string>)
      returns (r: Result<OperationPlan, PlanError>)
      requires Valid()
      modifies this
      ensures Valid()
      ensures r == CreateExecutablePlan(supergraph, document, operationName, flatten, planner, makeExecutable)
      ensures (supergraph, document, operationName) in old(plans) ==> plans == old(plans) && planningRuns == old(planningRuns)
      ensures (supergraph, document, operationName) !in old(plans) ==> planningRuns == old(planningRuns) + 1
      ensures r.Ok? ==> (supergraph, document, operationName) in plans
      ensures old(plans).Keys <= plans.Keys
    {
      var key := (supergraph, document, operationName);
      if key in plans {
        return Ok(plans[key]);
      }
      r := CreateExecutablePlan(supergraph, document, operationName, flatten, planner, makeExecutable);
      planningRuns := planningRuns + 1;
      if r.Ok? {
        plans := plans[key := r.value];
      }
    }
  }

  // ----- the supergraph executor -----

  /** The executor `getExecutorForSupergraph` returns, with the state its closures share:
      the hooks, the transport map, and the executor built for each subgraph so far.
      `executorMap[n]` is the executor the wrapped executor of `n` currently calls; a
      hook's `setExecutor` changes it for later calls too. */
  class SupergraphExecutor {
    const supergraph: Supergraph
    const hooks: seq<BeforeHook>
    const transportEntryMap: seq<(string, TransportEntry)>
    const getTransportExecutor: (Option<TransportEntry>, () -> seq<Node>, string) -> ExecutorId
    const run: Run
    const memo: PlanMemo
    const engine: Engine
    var executorMap: map<string, ExecutorId>
    /** The subgraphs `getTransportExecutor` was called for, in order. */
    ghost var transportCalls: seq<string>

    ghost predicate Valid()
      reads this, memo
    {
      memo.Valid() &&
      (forall i, j :: 0 <= i < j < |transportCalls| ==> transportCalls[i] != transportCalls[j]) &&
      (forall n :: n in executorMap <==> n in transportCalls)
    }

    constructor (supergraph: Supergraph,
                 getTransportExecutor: (Option<TransportEntry>, () -> seq<Node>, string) -> ExecutorId,
                 plugins: Option<seq<Plugin>>, run: Run, memo: PlanMemo, engine: Engine)
      requires memo.Valid()
      ensures this.supergraph == supergraph && this.getTransportExecutor == getTransportExecutor
      ensures this.run == run && this.memo == memo && this.engine == engine
      ensures hooks == CollectedHooks(plugins.GetOr([]))
      ensures transportEntryMap == TransportMap(supergraph.transportDirectives)
      ensures executorMap == map[] && transportCalls == []
      ensures Valid()
    {
      this.supergraph := supergraph;
      this.getTransportExecutor := getTransportExecutor;
      this.run := run;
      this.memo := memo;
      this.engine := engine;
      var onSubgraphExecuteHooks := CollectHooks(plugins);
      hooks := onSubgraphExecuteHooks;
      var entries := GetSubgraphTransportMap(supergraph);
      transportEntryMap := entries;
      executorMap := map[];
      transportCalls := [];
    }

    /** The executor `getTransportExecutor` builds for a subgraph; it is handed a way to
        extract that subgraph from the supergraph. */
    function TransportExecutor(subgraphName: string): ExecutorId
      reads this
    {
      getTransportExecutor(Get(transportEntryMap, subgraphName),
                           () => ExtractSubgraph(subgraphName, supergraph.definitions), subgraphName)
    }

    function Context(subgraphName: string): HookContext
      reads this
    {
      HookContext(supergraph, subgraphName, Get(transportEntryMap, subgraphName))
    }

    /** `onSubgraphExecute`: the first call for a subgraph builds its executor and stores
        it; later calls reuse it. */
    method OnSubgraphExecute(subgraphName: string, document: Document, variables: Option<seq<(string, Json)>>,
                             context: Option<Json>) returns (result: ExecutionResult)
      requires Valid()
      modifies this
      ensures Valid()
      ensures executorMap.Keys == old(executorMap.Keys) + {subgraphName}
      ensures var request := ExecutionRequest(document, variables, context, None, None);
              var cell := if subgraphName in old(executorMap) then old(executorMap)[subgraphName]
                          else TransportExecutor(subgraphName);
              (result, executorMap[subgraphName]) == ExecuteWithHooks(hooks, Context(subgraphName), cell, request, run)
      ensures forall n :: n in old(executorMap) && n != subgraphName ==> executorMap[n] == old(executorMap)[n]
      ensures transportCalls == if subgraphName in old(executorMap) then old(transportCalls)
                                else old(transportCalls) + [subgraphName]
    {
      var request := ExecutionRequest(document, variables, context, None, None);
      var executor: ExecutorId;
      if subgraphName in executorMap {
        executor := executorMap[subgraphName];
      } else {
        var transportEntry := Get(transportEntryMap, subgraphName);
        executor := getTransportExecutor(transportEntry, () => ExtractSubgraph(subgraphName, supergraph.definitions),
                                         subgraphName);
        transportCalls := transportCalls + [subgraphName];
      }
      var cell;
      result, cell := ExecuteHooked(hooks, Context(subgraphName), executor, request, run);
      executorMap := executorMap[subgraphName := cell];
    }

    /** The supergraph executor on one request: the (cached) plan, run with the request's
        variables. A planning error is thrown. */
    method Execute(request: ExecutionRequest) returns (r: Result<ExecutionResult, PlanError>)
      requires Valid()
      modifies memo
      ensures Valid()
      ensures r == match CreateExecutablePlan(supergraph, request.document, request.operationName,
                                              memo.flatten, memo.planner, memo.makeExecutable)
                   case Err(e) => Err(e)
                   case Ok(plan) => Ok(ExecuteOperationPlan(plan, engine, request.variables))
      ensures (supergraph, request.document, request.operationName) in old(memo.plans) ==>
                memo.planningRuns == old(memo.planningRuns)
      ensures memo.planningRuns <= old(memo.planningRuns) + 1
      ensures r.Ok? ==> (supergraph, request.document, request.operationName) in memo.plans
    {
      var executablePlan := memo.GetPlan(supergraph, request.document, request.operationName);
      match executablePlan {
        case Err(e) => r := Err(e);
        case Ok(plan) => r := Ok(ExecuteOperationPlan(plan, engine, request.variables));
      }
    }
  }

  /** Two calls for the same subgraph build its executor once. */
  method OnSubgraphExecuteTwice(executor: SupergraphExecutor, subgraphName: string, document: Document)
    returns (first: ExecutionResult, second: ExecutionResult)
    requires executor.Valid()
    modifies executor
    ensures executor.Valid()
    ensures subgraphName !in old(executor.executorMap) ==> executor.transportCalls == old(executor.transportCalls) + [subgraphName]
    ensures subgraphName in old(executor.executorMap) ==> executor.transportCalls == old(executor.transportCalls)
  {
    first := executor.OnSubgraphExecute(subgraphName, document, None, None);
    second := executor.OnSubgraphExecute(subgraphName, document, None, None);
  }

  /** Executing the same request twice plans once and answers the same both times. */
  method ExecuteTwice(executor: SupergraphExecutor, request: ExecutionRequest)
    returns (first: Result<ExecutionResult, PlanError>, second: Result<ExecutionResult, PlanError>)
    requires executor.Valid()
    modifies executor.memo
    ensures executor.Valid()
    ensures first == second
    ensures first.Ok? ==> executor.memo.planningRuns <= old(executor.memo.planningRuns) + 1
  {
    first := executor.Execute(request);
    second := executor.Execute(request);
  }

  /** A response carrying the planner's variable fields is answered without them. */
  lemma AnswerWithoutInternalFields()
    ensures PrepareExecutionResult(Some(JObject([("a", JString("a")), ("__variable_0", JString("x")), ("b", JString("b"))])), [])
              == ExecutionResult(Some(JObject([("a", JString("a")), ("b", JString("b"))])), None)
  {
    var entries := [("a", JString("a")), ("__variable_0", JString("x")), ("b", JString("b"))];
    assert !IsInternalKey("a") && !IsInternalKey("b");
    assert IsInternalKey("__variable_0") by {
      assert "__variable_0"[..|"__variable"|] == "__variable";
    }
    var last := [("b", JString("b"))];
    assert last[1..] == [];
    assert RemoveInternalEntries(last) == last;
    assert entries[1..][1..] == last;
    assert RemoveInternalEntries(entries[1..]) == last;
    assert RemoveInternalEntries(entries) == [("a", JString("a"))] + last;
    assert RemoveInternalFields(JObject(entries)) == JObject([("a", JString("a")), ("b", JString("b"))]);
  }

  // ----- the server plugin -----

  datatype OnExecuteDecision = AnswerIntrospection(result: ExecutionResult) | UseSupergraphExecutor

  /** `onExecute`: an operation named `IntrospectionQuery` is answered with the supergraph's
      introspection; any other request gets the supergraph executor installed. */
  function OnExecute(operationName: Option<string>, introspection: Json): (d: OnExecuteDecision)
    ensures d.AnswerIntrospection? <==> operationName == Some("IntrospectionQuery")
    ensures d.AnswerIntrospection? ==> d.result == ExecutionResult(Some(introspection), None)
  {
    if operationName == Some("IntrospectionQuery") then AnswerIntrospection(ExecutionResult(Some(introspection), None))
    else UseSupergraphExecutor
  }

  /** The arguments `execute` is called with. */
  datatype ExecutionArgs = ExecutionArgs(document: Document, variableValues: Option<seq<(string, Json)>>,
                                         contextValue: Option<Json>, rootValue: Option<Json>,
                                         operationName: Option<string>)

  /** `getExecuteFnFromExecutor`: the request the executor receives. Each argument is
      passed on under the request field the executor reads it from. */
  function ToExecutionRequest(args: ExecutionArgs): (r: ExecutionRequest)
    ensures r.document == args.document
    ensures r.variables == args.variableValues
    ensures r.context == args.contextValue
    ensures r.rootValue == args.rootValue
    ensures r.operationName == args.operationName
  {
    ExecutionRequest(args.document, args.variableValues, args.contextValue, args.operationName, args.rootValue)
  }

  /** No argument is lost on the way: different calls of `execute` give different requests. */
  lemma ExecutionRequestInjective(a: ExecutionArgs, b: ExecutionArgs)
    ensures ToExecutionRequest(a) == ToExecutionRequest(b) <==> a == b
  {
  }
}

=== FILE: syntax.dfy ===
/** The slice of the GraphQL abstract syntax tree the gateway core reads and rewrites:
    literal values, directives, type-system definitions (as a uniform tree) and
    executable documents; plus the loaded supergraph. */
module Syntax {
  import opened Outcomes
  import opened Values

  datatype OperationType = Query | Mutation | Subscription

  /** The keyword of an operation type, as `${operationType}` prints it. */
  function Keyword(t: OperationType): string {
    match t
    case Query => "query"
    case Mutation => "mutation"
    case Subscription => "subscription"
  }

  /** A reference to a type: `User`, `[User]`, `User!`. */
  datatype TypeRef = NamedType(name: string) | ListType(ofType: TypeRef) | NonNullType(ofType: TypeRef)

  /** How graphql-js prints a type reference (`String(type)`). */
  function PrintType(t: TypeRef): string {
    match t
    case NamedType(n) => n
    case ListType(inner) => "[" + PrintType(inner) + "]"
    case NonNullType(inner) => PrintType(inner) + "!"
  }

  /** Literal value nodes. Number literals carry the string JavaScript prints for the
      number they denote. */
  datatype ValueNode =
    | VariableValue(name: string)
    | IntValue(repr: string)
    | FloatValue(repr: string)
    | StringValue(value: string)
    | BooleanValue(b: bool)
    | NullValue
    | EnumValue(name: string)
    | ListValue(values: seq<ValueNode>)
    | ObjectValue(fields: seq<(string, ValueNode)>)

  datatype Argument = Argument(name: string, value: ValueNode)

  datatype Directive = Directive(name: string, arguments: seq<Argument>)

  /** The kinds of type-system definition nodes that can carry directives. */
  datatype NodeKind =
    | SchemaDefinition
    | DirectiveDefinition
    | ScalarTypeDefinition
    | ObjectTypeDefinition
    | InterfaceTypeDefinition
    | UnionTypeDefinition
    | EnumTypeDefinition
    | InputObjectTypeDefinition
    | FieldDefinition
    | InputValueDefinition
    | EnumValueDefinition

  /** A type-system definition node: its name, its directives, the type it refers to
      (fields and input values) and its nested definitions (fields of a type, arguments
      of a field, values of an enum). */
  datatype Node = Node(kind: NodeKind, name: string, directives: seq<Directive>,
                       typeRef: Option<TypeRef>, children: seq<Node>)

  /** The first argument with the given name (`arguments.find(...)`). */
  function FindArgument(args: seq<Argument>, name: string): (r: Option<ValueNode>)
    ensures r.Some? ==> Argument(name, r.value) in args
  {
    if args == [] then None
    else if args[0].name == name then Some(args[0].value)
    else FindArgument(args[1..], name)
  }

  /** The first directive with the given name (`directives.find(...)`). */
  function FindDirective(ds: seq<Directive>, name: string): (r: Option<Directive>)
    ensures r.Some? ==> r.value.name == name && r.value in ds
  {
    if ds == [] then None
    else if ds[0].name == name then Some(ds[0])
    else FindDirective(ds[1..], name)
  }

  // ----- executable documents -----

  datatype VariableDefinition = VariableDefinition(name: string, typeRef: TypeRef, defaultValue: Option<ValueNode>)

  datatype Selection =
    | Field(alias: Option<string>, name: string, arguments: seq<Argument>, selections: seq<Selection>)
    | FragmentSpread(name: string)
    | InlineFragment(typeCondition: Option<string>, selections: seq<Selection>)

  datatype OperationDefinition = OperationDefinition(operation: OperationType, name: Option<string>,
                                                     variableDefinitions: seq<VariableDefinition>,
                                                     selections: seq<Selection>)

  datatype FragmentDefinition = FragmentDefinition(name: string, typeCondition: string, selections: seq<Selection>)

  datatype Definition =
    | Operation(op: OperationDefinition)
    | Fragment(fragment: FragmentDefinition)
    | TypeSystem(node: Node)

  datatype Document = Document(definitions: seq<Definition>)

  /** The loaded supergraph: an identity (schemas are compared by identity), the root
      type of each operation kind, its printed definitions, and the argument objects of
      its schema-level `transport` directives in order. */
  datatype Supergraph = Supergraph(id: nat, rootTypes: map<OperationType, string>, definitions: seq<Node>,
                                   transportDirectives: seq<seq<(string, Json)>>)
}

=== FILE: values.dfy ===
/** JSON-like JavaScript values as the gateway handles them in variables, responses and
    directive arguments, with the few JavaScript conversions the core relies on. */
module Values {
  import opened Outcomes

  /** A JavaScript value built from JSON. A number is carried as the string JavaScript
      prints for it (`String(x)`), so zero is exactly "0" (also for -0) and NaN is "NaN".
      An object is its own enumerable entries, in insertion order. */
  datatype Json =
    | JNull
    | JBool(b: bool)
    | JNumber(repr: string)
    | JString(s: string)
    | JArray(items: seq<Json>)
    | JObject(entries: seq<(string, Json)>)

  /** JavaScript truthiness of a value. */
  predicate Truthy(v: Json) {
    match v
    case JNull => false
    case JBool(b) => b
    case JNumber(r) => r != "0" && r != "NaN"
    case JString(s) => s != ""
    case JArray(_) => true
    case JObject(_) => true
  }

  /** The text a template literal `${v}` produces for `v`. */
  function ToString(v: Json): string
    decreases v
  {
    match v
    case JNull => "null"
    case JBool(b) => if b then "true" else "false"
    case JNumber(r) => r
    case JString(s) => s
    case JArray(items) => JoinElements(items)
    case JObject(_) => "[object Object]"
  }

  /** `items.join(",")`: a null element contributes the empty string. */
  function JoinElements(items: seq<Json>): string
    decreases items
  {
    if items == [] then ""
    else
      var head := if items[0] == JNull then "" else ToString(items[0]);
      if |items| == 1 then head else head + "," + JoinElements(items[1..])
  }

  /** `parts.join(sep)` on an array of strings. */
  function Join(parts: seq<string>, sep: string): string {
    if parts == [] then ""
    else if |parts| == 1 then parts[0]
    else parts[0] + sep + Join(parts[1..], sep)
  }

  predicate StartsWith(s: string, prefix: string) {
    |prefix| <= |s| && s[..|prefix|] == prefix
  }

  // ----- ordered objects: a record's entries in insertion order -----

  function Keys<V>(entries: seq<(string, V)>): (ks: seq<string>)
    ensures |ks| == |entries|
    ensures forall i :: 0 <= i < |entries| ==> ks[i] == entries[i].0
  {
    if entries == [] then [] else [entries[0].0] + Keys(entries[1..])
  }

  /** `obj[key]`: the value under the first entry with that key. */
  function Get<V>(entries: seq<(string, V)>, key: string): (r: Option<V>)
    ensures r.None? <==> key !in Keys(entries)
    ensures r.Some? ==> (key, r.value) in entries
  {
    if entries == [] then None
    else if entries[0].0 == key then Some(entries[0].1)
    else Get(entries[1..], key)
  }

  /** `obj[key] = value`: an existing key keeps its position and takes the new value,
      a new key is appended. */
  function Put<V>(entries: seq<(string, V)>, key: string, value: V): (r: seq<(string, V)>)
    ensures key in Keys(entries) ==> Keys(r) == Keys(entries)
    ensures key !in Keys(entries) ==> Keys(r) == Keys(entries) + [key]
  {
    if entries == [] then [(key, value)]
    else if entries[0].0 == key then [(key, value)] + entries[1..]
    else [entries[0]] + Put(entries[1..], key, value)
  }

  /** After `obj[key] = value`, `obj[key]` is `value` and every other key reads as before. */
  lemma {:induction false} GetPut<V>(entries: seq<(string, V)>, key: string, value: V, k: string)
    ensures Get(Put(entries, key, value), k) == if k == key then Some(value) else Get(entries, k)
  {
    if entries != [] {
      var r := Put(entries, key, value);
      if entries[0].0 == key {
        assert r[0] == (key, value) && r[1..] == entries[1..];
      } else {
        GetPut(entries[1..], key, value, k);
        assert r[0] == entries[0] && r[1..] == Put(entries[1..], key, value);
      }
    }
  }

  predicate UniqueKeys<V>(entries: seq<(string, V)>) {
    forall i, j :: 0 <= i < j < |entries| ==> entries[i].0 != entries[j].0
  }

  lemma {:induction false} PutKeepsKeysUnique<V>(entries: seq<(string, V)>, key: string, value: V)
    requires UniqueKeys(entries)
    ensures UniqueKeys(Put(entries, key, value))
  {
    var r := Put(entries, key, value);
    var ks := Keys(r);
    if key in Keys(entries) {
      assert Keys(r) == Keys(entries);
    } else {
      assert Keys(r) == Keys(entries) + [key];
      forall i | 0 <= i < |entries| ensures entries[i].0 != key {
        assert Keys(entries)[i] == entries[i].0;
      }
    }
    forall i, j | 0 <= i < j < |r| ensures r[i].0 != r[j].0 {
      assert ks[i] == r[i].0 && ks[j] == r[j].0;
      if j < |entries| {
        assert Keys(entries)[i] == entries[i].0 && Keys(entries)[j] == entries[j].0;
      } else {
        assert Keys(entries)[i] == entries[i].0;
      }
    }
  }

  // ----- JSON.stringify of a string -----

  function HexDigit(n: nat): (c: char)
    requires n < 16
  {
    if n < 10 then ('0' as int + n) as char else ('a' as int + n - 10) as char
  }

  /** How JSON.stringify writes one character inside a string literal. */
  function EscapeChar(c: char): string {
    if c == '"' then "\\\""
    else if c == '\\' then "\\\\"
    else if c == '\n' then "\\n"
    else if c == '\r' then "\\r"
    else if c == '\t' then "\\t"
    else if c == 8 as char then "\\b"
    else if c == 12 as char then "\\f"
    else if (c as int) < 0x20 then ['\\', 'u', '0', '0', HexDigit(c as int / 16), HexDigit(c as int % 16)]
    else [c]
  }

  function Escape(s: string): string {
    if s == [] then [] else EscapeChar(s[0]) + Escape(s[1..])
  }

  /** `JSON.stringify(s)` for a string `s`. */
  function Quote(s: string): (r: string)
    ensures |r| >= 2 && r[0] == '"' && r[|r| - 1] == '"'
  {
    "\"" + Escape(s) + "\""
  }

  // ----- reading a JSON string literal back (the partner of Quote) -----

  function HexValue(c: char): Option<nat> {
    if '0' <= c <= '9' then Some(c as int - '0' as int)
    else if 'a' <= c <= 'f' then Some(c as int - 'a' as int + 10)
    else if 'A' <= c <= 'F' then Some(c as int - 'A' as int + 10)
    else None
  }

  function SimpleEscape(e: char): Option<char> {
    if e == '"' then Some('"')
    else if e == '\\' then Some('\\')
    else if e == '/' then Some('/')
    else if e == 'n' then Some('\n')
    else if e == 'r' then Some('\r')
    else if e == 't' then Some('\t')
    else if e == 'b' then Some(8 as char)
    else if e == 'f' then Some(12 as char)
    else None
  }

  function Prepend(c: char, rest: Option<string>): Option<string> {
    match rest
    case Some(s) => Some([c] + s)
    case None => None
  }

  /** The characters denoted by the body of a JSON string literal, or None when the body
      is not well formed. */
  function Unescape(t: string): Option<string>
    decreases |t|
  {
    if t == [] then Some([])
    else if t[0] == '"' || (t[0] as int) < 0x20 then None
    else if t[0] != '\\' then Prepend(t[0], Unescape(t[1..]))
    else if |t| < 2 then None
    else if t[1] == 'u' then
      if |t| < 6 then None
      else
        match (HexValue(t[2]), HexValue(t[3]), HexValue(t[4]), HexValue(t[5]))
        case (Some(a), Some(b), Some(c), Some(d)) =>
          var code := ((a * 16 + b) * 16 + c) * 16 + d;
          if 0xD800 <= code < 0xE000 || code >= 0x1_0000 then None
          else Prepend(code as char, Unescape(t[6..]))
        case _ => None
    else
      match SimpleEscape(t[1])
      case Some(c) => Prepend(c, Unescape(t[2..]))
      case None => None
  }

  /** `JSON.parse` restricted to string literals. */
  function Unquote(t: string): Option<string> {
    if |t| >= 2 && t[0] == '"' && t[|t| - 1] == '"' then Unescape(t[1..|t| - 1]) else None
  }

  lemma HexDigitValue(n: nat)
    requires n < 16
    ensures HexValue(HexDigit(n)) == Some(n)
  {
  }

  lemma UnescapeEscapeChar(c: char, rest: string)
    ensures Unescape(EscapeChar(c) + rest) == Prepend(c, Unescape(rest))
  {
    var t := EscapeChar(c) + rest;
    if c == '"' || c == '\\' || c == '\n' || c == '\r' || c == '\t' || c == 8 as char || c == 12 as char {
      assert t[2..] == rest;
    } else if (c as int) < 0x20 {
      var n := c as int;
      HexDigitValue(n / 16);
      HexDigitValue(n % 16);
      assert t[2] == '0' && t[3] == '0' && t[4] == HexDigit(n / 16) && t[5] == HexDigit(n % 16);
      assert t[6..] == rest;
    } else {
      assert t[1..] == rest;
    }
  }

  /** Reading back what JSON.stringify wrote for a string gives the string itself. */
  lemma {:induction false} UnescapeEscape(s: string)
    ensures Unescape(Escape(s)) == Some(s)
  {
    if s != [] {
      UnescapeEscape(s[1..]);
      UnescapeEscapeChar(s[0], Escape(s[1..]));
      assert [s[0]] + s[1..] == s;
    }
  }

  lemma QuoteRoundTrip(s: string)
    ensures Unquote(Quote(s)) == Some(s)
  {
    var q := Quote(s);
    assert q[1..|q| - 1] == Escape(s);
    UnescapeEscape(s);
  }
}
